=== FILE: README.md ===
# Admin booking calendar: a Dafny model

This project models the pure calendar logic of the admin calendar page of
the AIM booking system (`client/src/pages/AdminPage/Calendar.jsx`).
Administrators use that page to browse room bookings by month and by day.
The model covers:

- **Civil dates** (`dates.dfy`, module `CivilDates`). These are
  proleptic-Gregorian `(year, month, day)` values. The model defines:
  - day numbers and the weekday as `getDay()` returns it;
  - JavaScript's `new Date(year, monthIndex, day)` with its month carry
    and its day overflow into neighbouring months;
  - `setDate(getDate() + n)` and `setMonth(getMonth() + 1)`;
  - the date comparisons the page makes, which are comparisons of time
    values.
- **The booking record** (`bookings.dfy`). A status is one of the three
  spellings the page compares against or any other spelling, which is
  shown. Cadence is a closed enumeration. A time field carries its raw text and, when the text parses
  as a date, its UTC clock.
- **The recurrence expander** `processedBookings` (`recurrence.dfy`).
  - It drops pending and declined bookings.
  - It passes one-off bookings through unchanged.
  - It expands a Daily, Weekly or Monthly series into one copy per step
    inside the displayed month.

  The same file models its sibling `calculateRecurringDates`.
- **A corrected expander** (`aligned.dfy`). It starts each series on its
  own cadence (see Findings). It also holds the worked examples of the
  expander.
- **`groupBookingsByDate`** (`grouping.dfy`). It buckets the expanded
  bookings by date. The same file models the day view's filter by one date.
- **`formatTime`** and the slot sort key (`time_format.dfy`).
  - `formatTime` is the 12-hour-clock normaliser.
  - The sort key is the comparator's `getStart`.
  - The file also models the half-hour grid `generateTimeSlots`.
- **The day view's rows** (`day_slots.dfy`).
  - The rows are the distinct `"start - end"` labels of the day's bookings,
    sorted by start clock.
  - Each row lists the bookings filed under it.
- **The month grid** `generateDays` (`month_grid.dfy`). It has 42 cells:
  - the tail of the previous month;
  - each day of the displayed month, with its booking count and first
    three bookings;
  - the head of the next month.
- **Navigation** (`navigation.dfy`). This covers the month arrows, the
  month and year pickers, "today", opening a day, the day view's arrows
  and "back to calendar".

Every date the page builds as a string key (`YYYY-MM-DD`) is a `Date`
value here. For years 1000 to 9999, comparing two keys is therefore
comparing two dates. Outside that range the page's two key formats
disagree; see "## Left out".

The page computes `new Date(Math.max(anchor, firstOfMonth))` as the first
cursor of a series. The model reproduces this as written.

A Weekly or Monthly series is evidently meant to recur on its anchor's
weekday or day of the month. The step of Calendar.jsx:134-139 keeps the
weekday. It keeps the day of the month only for anchors on day 1 to 28
(`Recurrence.MonthlyKeepsDay`): a later day rolls into the month after a
shorter one and stays on the day it rolled to
(`Recurrence.MonthlyRollover`).
The first cursor breaks this for a series anchored before the displayed
month, because it restarts on the 1st. The model reproduces the code
(`AlignedRecurrence.MonthlyDriftAsWritten`) and records the difference
under Findings, with a corrected expander beside it.

A one-off booking is pushed unchanged (Calendar.jsx:108-110), so its
`isRecurring` field stays whatever the booking list held.

## Model

| member | source | states |
|---|---|---|
| `CivilDates.RankIsTimeOrder` | client/src/pages/AdminPage/Calendar.jsx:116-125 | the `<`/`<=`/`>` comparisons of dates agree with comparisons of day numbers, and equal keys are equal dates |
| `CivilDates.InMonthIff` | client/src/pages/AdminPage/Calendar.jsx:116-125 | a date lies between the first and the last day of a month (both inclusive) exactly when it belongs to that month |
| `CivilDates.Later` | client/src/pages/AdminPage/Calendar.jsx:120-123 | `Math.max` of two dates is one of them and is on or after both |
| `CivilDates.JsDate` | client/src/pages/AdminPage/Calendar.jsx:28-29 | `new Date(y, m, d)` is the date `d - 1` days after the first of the month that index `m` denotes, so out-of-range months and days carry |
| `CivilDates.JsDateInRange` | client/src/pages/AdminPage/Calendar.jsx:183 | an in-range constructor call yields exactly the date it names |
| `CivilDates.JsDateDayZero` | client/src/pages/AdminPage/Calendar.jsx:28 | day 0 of the next month index is the last day of the month |
| `CivilDates.AddDaysDayNumber` | client/src/pages/AdminPage/Calendar.jsx:134-137 | moving a date by `n` days moves its day number by exactly `n`, across month and year ends |
| `CivilDates.AddDaysIsSetDate` | client/src/pages/AdminPage/Calendar.jsx:187-188 | the day move is the date `setDate(getDate() + n)` produces |
| `CivilDates.AddDays` | client/src/pages/AdminPage/Calendar.jsx:134-137 | moving a date forward gives a later date, backward an earlier one, and by zero the same date |
| `CivilDates.AddOneMonth` | client/src/pages/AdminPage/Calendar.jsx:138-139 | one month on is strictly later and past the last day of the date's month |
| `CivilDates.AddOneMonthIsSetMonth` | client/src/pages/AdminPage/Calendar.jsx:139 | the month step is the date `setMonth(getMonth() + 1)` produces, rolling over when the next month is shorter |
| `CivilDates.WeekdayInMonth` | client/src/pages/AdminPage/Calendar.jsx:29 | the weekday of day `k` is the weekday of the first shifted by `k - 1` modulo 7 |
| `CivilDates.Weekday` | client/src/pages/AdminPage/Calendar.jsx:29 | `getDay()` lies in 0..6 |
| `CivilDates.WeekdayAnchor` | client/src/pages/AdminPage/Calendar.jsx:29 | 2024-03-01 has `getDay()` 5 (a Friday), which fixes the weekday numbering to JavaScript's |
| `Recurrence.Step` | client/src/pages/AdminPage/Calendar.jsx:134-140 | each cadence step moves the cursor strictly forward, which makes both loops terminate |
| `Recurrence.MonthlyKeepsDay` | client/src/pages/AdminPage/Calendar.jsx:138-139 | a Monthly series anchored on day 1 to 28 is on that same day of the month at every step, `k` months after the anchor |
| `Recurrence.MonthlyRollover` | client/src/pages/AdminPage/Calendar.jsx:138-139 | a series anchored on January 31st, 2024 steps to March 2nd, then April 2nd |
| `Recurrence.IterateProgression` | client/src/pages/AdminPage/Calendar.jsx:134-137 | a Daily series advances one day per step and a Weekly series seven |
| `Recurrence.IterateIncreasing` | client/src/pages/AdminPage/Calendar.jsx:134-140 | series dates strictly increase with the step count |
| `Recurrence.RecurringDates` | client/src/pages/AdminPage/Calendar.jsx:228-246 | `calculateRecurringDates` lists the series dates from the start, each on or before the end (inclusive), and the next step passes the end |
| `Recurrence.RecurringDatesLength` | client/src/pages/AdminPage/Calendar.jsx:228-246 | a Daily list has one date per day of the inclusive range, and a Weekly list one per started week |
| `Recurrence.Occurrences` | client/src/pages/AdminPage/Calendar.jsx:124-141 | occurrence `i` is the booking copied onto series step `i`, on or before both the series end and the month's last day, and the loop stops at the first step past either |
| `Recurrence.ExpandOne` | client/src/pages/AdminPage/Calendar.jsx:104-111 | a pending or declined booking contributes nothing, a one-off contributes itself unchanged, and every copy of a series is the booking on a date of the displayed month |
| `Recurrence.MonthBounds` | client/src/pages/AdminPage/Calendar.jsx:115-122 | the constructor calls for the month's bounds give its first and last day |
| `Recurrence.ExpandOneWindow` | client/src/pages/AdminPage/Calendar.jsx:112-133 | range clipping: the series is skipped when it misses the month; otherwise the first copy is on `max(anchor, first of month)`, and each copy changes only `date` and `isRecurring` and lies in the inclusive window |
| `Recurrence.OccurrencesFollowRecurringDates` | client/src/pages/AdminPage/Calendar.jsx:124-141 | the expansion loop emits one copy per date of the `calculateRecurringDates` list bounded by the earlier of the two ends |
| `Recurrence.ExpandOneIsRecurringDates` | client/src/pages/AdminPage/Calendar.jsx:112-141 | a shown series expands to exactly its recurring-date list from the clipped start, so the early return changes nothing |
| `Recurrence.ExpandOneCount` | client/src/pages/AdminPage/Calendar.jsx:120-141 | a series contributes one copy per day of the clipped window (Daily), one per started week (Weekly), or at most one (Monthly) |
| `Recurrence.MonthlyStaysOnce` | client/src/pages/AdminPage/Calendar.jsx:138-139 | inside one month a Monthly series leaves the month after one step |
| `Recurrence.ExpandAppend` | client/src/pages/AdminPage/Calendar.jsx:102-104 | expanding a concatenation expands each part in order |
| `Recurrence.ExpandSplit` | client/src/pages/AdminPage/Calendar.jsx:102-144 | each booking's copies sit between those of the bookings before and after it |
| `Recurrence.Expand` | client/src/pages/AdminPage/Calendar.jsx:102-144 | `processedBookings` never lists a pending or declined booking |
| `Recurrence.ExpandSound` | client/src/pages/AdminPage/Calendar.jsx:102-144 | everything emitted comes from a shown input booking, either unchanged or copied onto a date of the month |
| `AlignedRecurrence.AlignCount` | client/src/pages/AdminPage/Calendar.jsx:120-123 | the number of steps from the anchor to the first series date on or after the first of the month; earlier steps fall before it |
| `AlignedRecurrence.ExpandOneAligned` | client/src/pages/AdminPage/Calendar.jsx:102-144 | the corrected expander keeps the status filter and the one-off pass-through, and puts every copy inside the displayed month |
| `AlignedRecurrence.ExpandOneAlignedExact` | client/src/pages/AdminPage/Calendar.jsx:120-141 | the corrected expander emits, in order, exactly the series dates that fall in the displayed window |
| `AlignedRecurrence.MonthlyAlignedOnce` | client/src/pages/AdminPage/Calendar.jsx:124-141 | a corrected Monthly series with a step inside the window shows exactly once, on its first step in the displayed month |
| `AlignedRecurrence.ExpandOneAlignedMonthlyOnce` | client/src/pages/AdminPage/Calendar.jsx:138-139 | a corrected Monthly series shows at most once a month |
| `AlignedRecurrence.WeeklyAlignedOnWeekday` | client/src/pages/AdminPage/Calendar.jsx:136-137 | a corrected Weekly series keeps the anchor's weekday |
| `AlignedRecurrence.ExpandAligned` | client/src/pages/AdminPage/Calendar.jsx:102-144 | everything the corrected expander emits derives from a shown input booking |
| `AlignedRecurrence.WeeklyInMarch` | client/src/pages/AdminPage/Calendar.jsx:112-141 | a Weekly series anchored on 2024-03-05 shows in March 2024 on the 5th, 12th, 19th and 26th |
| `AlignedRecurrence.WeeklyDriftAsWritten` | client/src/pages/AdminPage/Calendar.jsx:120-123 | as written, a Weekly series anchored on Tuesday 2024-02-27 shows first on Friday 2024-03-01, which is no step of the series |
| `AlignedRecurrence.WeeklyDriftCorrected` | client/src/pages/AdminPage/Calendar.jsx:120-123 | corrected, that series shows first on Tuesday 2024-03-05 |
| `AlignedRecurrence.MonthlyDriftAsWritten` | client/src/pages/AdminPage/Calendar.jsx:120-123 | as written, a Monthly series anchored on 2024-02-15 shows in March only on the 1st |
| `AlignedRecurrence.MonthlyDriftCorrected` | client/src/pages/AdminPage/Calendar.jsx:120-123 | corrected, that series shows in March only on the 15th |
| `Grouping.OnDate` | client/src/pages/AdminPage/Calendar.jsx:410 | the day view's filter keeps exactly the bookings of that date |
| `Grouping.GroupByDate` | client/src/pages/AdminPage/Calendar.jsx:155-165 | grouping no bookings gives no buckets |
| `Grouping.GroupByDateBuckets` | client/src/pages/AdminPage/Calendar.jsx:155-165 | the keys are exactly the dates that occur, and each bucket is the input filtered by its date, in input order and never empty |
| `Grouping.OnDateCount` | client/src/pages/AdminPage/Calendar.jsx:155-165 | each booking is in its own date's bucket as often as it occurs in the input, and in no other bucket |
| `Grouping.GroupSizes` | client/src/pages/AdminPage/Calendar.jsx:155-165 | the bucket sizes add up to the input length |
| `Grouping.BucketIsDayFilter` | client/src/pages/AdminPage/Calendar.jsx:265 | a cell's lookup in the grouping, empty when the date has no bucket, is the day view's list for that date |
| `TimeFormat.FormatTime` | client/src/pages/AdminPage/Calendar.jsx:192-226 | empty text stays empty, text mentioning am/pm is kept, and every result is the input or mentions am/pm; the conversion itself is stated case by case by the three lemmas below |
| `TimeFormat.FormatTimeClock` | client/src/pages/AdminPage/Calendar.jsx:214-221 | clock text without am/pm that is not a parsed ISO timestamp becomes the 12-hour label of the captured hour (0 as 12 AM, 12 as 12 PM, 13-23 as 1-11 PM, 1-11 as AM) with the captured minute digits kept |
| `TimeFormat.FormatTimeIso` | client/src/pages/AdminPage/Calendar.jsx:199-209 | text without am/pm that holds a `T` and parses shows its UTC hour converted the same way and its UTC minute padded to two digits |
| `TimeFormat.FormatTimeFallback` | client/src/pages/AdminPage/Calendar.jsx:214-225 | text without am/pm that is neither a parsed ISO timestamp nor a clock is returned unchanged |
| `TimeFormat.FormatTimeClockKey` | client/src/pages/AdminPage/Calendar.jsx:214-221 | a row label starting with formatted clock text of the day (hour `h` below 24, minute digits worth `m`) reads back through the sort key as `h * 60 + m`, the clock's minutes since midnight |
| `TimeFormat.ClockTextMinute` | client/src/pages/AdminPage/Calendar.jsx:214 | the minute the clock pattern captures always has two digits, so the minute condition of the read-back lemmas excludes no match |
| `TimeFormat.FormatTimeIsoKey` | client/src/pages/AdminPage/Calendar.jsx:199-209 | a row label starting with a formatted ISO timestamp reads back as `hour * 60 + minute` of the UTC clock it parsed to |
| `TimeFormat.LabelKeyOfPadded` | client/src/pages/AdminPage/Calendar.jsx:199-209 | a label whose start is the 12-hour label of an hour and a minute padded to two digits has the key `hour * 60 + minute` |
| `TimeFormat.LabelKeyOfClock12` | client/src/pages/AdminPage/Calendar.jsx:440-446 | a label `clock - end` whose clock is a 12-hour label of hour `h` and two minute digits worth `m` has the key `h * 60 + m` |
| `TimeFormat.MatchClockAccepts` | client/src/pages/AdminPage/Calendar.jsx:214-216 | every `H:MM` or `H:MM:SS` with a one- or two-digit hour matches and captures the hour's value and the minute digits |
| `TimeFormat.MatchClockOnlyAccepts` | client/src/pages/AdminPage/Calendar.jsx:214 | everything that matches has that shape |
| `TimeFormat.MatchClock` | client/src/pages/AdminPage/Calendar.jsx:214 | the pattern matches exactly the texts of clock shape with a one- or two-digit hour |
| `TimeFormat.ClockHasAmPm` | client/src/pages/AdminPage/Calendar.jsx:217-221 | a converted clock always ends in AM or PM |
| `TimeFormat.FormatTimeIdempotent` | client/src/pages/AdminPage/Calendar.jsx:192-226 | formatting a formatted time changes nothing |
| `TimeFormat.TwoPmClock` | client/src/pages/AdminPage/Calendar.jsx:214-221 | `14:00:00` reads as `2:00 PM` |
| `TimeFormat.TwoPmIso` | client/src/pages/AdminPage/Calendar.jsx:199-209 | an ISO time at 14:00 UTC also reads as `2:00 PM` |
| `TimeFormat.NatToString` | client/src/pages/AdminPage/Calendar.jsx:221 | the decimal text of a number reads back as that number, with no leading zero |
| `TimeFormat.Pad2` | client/src/pages/AdminPage/Calendar.jsx:209 | a padded minute is two digits that read back as the minute |
| `TimeFormat.MatchClock12` | client/src/pages/AdminPage/Calendar.jsx:444 | the comparator's pattern, applied to a 12-hour label, captures its hour, minute and meridiem |
| `TimeFormat.MeridiemInverse` | client/src/pages/AdminPage/Calendar.jsx:445 | `h % 12 + (PM ? 12 : 0)` undoes the hour conversion of `formatTime` for every hour of the day |
| `TimeFormat.StartPartOfLabel` | client/src/pages/AdminPage/Calendar.jsx:443 | the part before the first `" - "` of `a - b` is `a` when `a` holds no dash |
| `TimeFormat.SlotKeyOfClock` | client/src/pages/AdminPage/Calendar.jsx:442-446 | a label starting with a converted clock sorts by the clock's minutes since midnight: 12 AM gives 0 and 12 PM gives 720 |
| `TimeFormat.SlotKey` | client/src/pages/AdminPage/Calendar.jsx:440-446 | `getStart` of a label, where it finds a clock, is a non-negative number of minutes |
| `TimeFormat.GridLabelIsClock12` | client/src/pages/AdminPage/Calendar.jsx:428-431 | the grid's 12-hour conversion (hour modulo 12, with 0 shown as 12) agrees with `formatTime`'s for every hour of the day |
| `TimeFormat.TimeGrid` | client/src/pages/AdminPage/Calendar.jsx:424-436 | the grid has 34 half-hour labels |
| `TimeFormat.TimeGridKeys` | client/src/pages/AdminPage/Calendar.jsx:424-436 | grid label `k` reads back as minute `420 + 30k` of the day, so the grid runs every half hour from 7:00 AM to 11:30 PM |
| `DaySlots.Dedup` | client/src/pages/AdminPage/Calendar.jsx:438 | the set holds exactly the labels that occur, each once |
| `DaySlots.Label` | client/src/pages/AdminPage/Calendar.jsx:438-439 | a booking's row label starts, up to its first `" - "`, with the formatted start time when that holds no dash |
| `DaySlots.RowKeyOfClockStart` | client/src/pages/AdminPage/Calendar.jsx:438-448 | a booking whose start is clock text of the day sorts its row by that clock's minutes since midnight |
| `DaySlots.RowKeyOfIsoStart` | client/src/pages/AdminPage/Calendar.jsx:438-448 | a booking whose start is an ISO timestamp parsed to the UTC clock `c` sorts its row by `c.hour * 60 + c.minute` |
| `DaySlots.DedupFirstOrder` | client/src/pages/AdminPage/Calendar.jsx:438 | the set keeps the labels in first-occurrence order |
| `DaySlots.Sort` | client/src/pages/AdminPage/Calendar.jsx:440-448 | the sort returns a permutation ordered by key |
| `DaySlots.SortStable` | client/src/pages/AdminPage/Calendar.jsx:440-448 | labels with equal keys keep their relative order |
| `DaySlots.SortSlots` | client/src/pages/AdminPage/Calendar.jsx:440-448 | the sort fails exactly when there are two or more labels and one has no clock in its start part; otherwise it returns a permutation ordered by key |
| `DaySlots.SortSlotsByClock` | client/src/pages/AdminPage/Calendar.jsx:440-448 | a successful sort of two or more labels orders them by start clock |
| `DaySlots.NineBeforeTen` | client/src/pages/AdminPage/Calendar.jsx:438-448 | `10:00 AM - 10:30 AM` and `9:00 AM - 9:30 AM` sort with nine o'clock first |
| `DaySlots.UniqueTimeSlotsRows` | client/src/pages/AdminPage/Calendar.jsx:438-448 | the rows are exactly the distinct labels of the day's bookings, ordered by start clock, with equal clocks in first-occurrence order |
| `DaySlots.UniqueTimeSlots` | client/src/pages/AdminPage/Calendar.jsx:438-448 | building the rows fails exactly when the day has two or more distinct labels and some booking's label holds no clock in its start part |
| `DaySlots.Filter` | client/src/pages/AdminPage/Calendar.jsx:485-487 | a filter keeps exactly the bookings that pass |
| `DaySlots.RowAsWritten` | client/src/pages/AdminPage/Calendar.jsx:483-487 | as written, a row lists exactly the day's bookings whose formatted start equals the label's first piece and whose formatted end equals its second |
| `DaySlots.Row` | client/src/pages/AdminPage/Calendar.jsx:483-487 | compared by whole label, a row lists exactly the day's bookings whose label is the row's |
| `DaySlots.SplitOfLabel` | client/src/pages/AdminPage/Calendar.jsx:484 | splitting a label whose parts hold no separator gives back its start and end |
| `DaySlots.RowsAgree` | client/src/pages/AdminPage/Calendar.jsx:483-487 | when no formatted time holds a separator, comparing the split pieces lists the same bookings as comparing whole labels |
| `DaySlots.EachBookingOneRow` | client/src/pages/AdminPage/Calendar.jsx:483-487 | with whole-label comparison, every booking of the day is listed under exactly one row, the row of its own label |
| `DaySlots.SplitDropsBooking` | client/src/pages/AdminPage/Calendar.jsx:484-487 | as written, a booking whose start text reads `9 - 10am` gets a row and is listed under none |
| `MonthGrid.DaysShown` | client/src/pages/AdminPage/Calendar.jsx:28 | `daysInMonth`, day 0 of the next month index, is the Gregorian length of the month |
| `MonthGrid.FirstColumn` | client/src/pages/AdminPage/Calendar.jsx:29 | `firstDayOfMonth`, the weekday of the constructor call for day 1, is the weekday of the first |
| `MonthGrid.Grid` | client/src/pages/AdminPage/Calendar.jsx:249-325 | the grid always has 42 cells |
| `MonthGrid.GridParts` | client/src/pages/AdminPage/Calendar.jsx:249-325 | the leading and current blocks never exceed 42 cells, and the grid is the three blocks in order |
| `MonthGrid.PreviousMonthTail` | client/src/pages/AdminPage/Calendar.jsx:256 | day `-i` of the month is the `i`-th last day of the previous month |
| `MonthGrid.LeadingArePreviousMonth` | client/src/pages/AdminPage/Calendar.jsx:253-260 | the leading cells are the last days of the previous month in ascending order, as many as the weekday of the first |
| `MonthGrid.CurrentAreMonthDays` | client/src/pages/AdminPage/Calendar.jsx:263-265 | day `k` sits in the column of its weekday, inside the grid, with its bucket's count and first three bookings |
| `MonthGrid.TrailingAreNextMonth` | client/src/pages/AdminPage/Calendar.jsx:314-322 | the remaining cells, at least five, are numbered 1, 2, … |
| `MonthGrid.FirstThree` | client/src/pages/AdminPage/Calendar.jsx:291 | the preview is the first three bookings, or all of them when there are fewer |
| `MonthGrid.CellMatchesDayView` | client/src/pages/AdminPage/Calendar.jsx:263-291 | a day's cell counts exactly the bookings the day view lists for that date and previews the first three of them |
| `Navigation.IndexOf` | client/src/pages/AdminPage/Calendar.jsx:348 | `indexOf` gives the first position holding the name, or -1 when the name is absent |
| `Navigation.Step` | client/src/pages/AdminPage/Calendar.jsx:169-189 | a day arrow with no selected date is the only failing event; the day view shows after a day click or while it was showing until "back"; month events leave the selection, and day events the displayed month, unchanged |
| `Navigation.InvariantHolds` | client/src/pages/AdminPage/Calendar.jsx:182-189 | the day view is only ever shown with a selected date, so its arrows never dereference `null` |
| `Navigation.MonthArrows` | client/src/pages/AdminPage/Calendar.jsx:170-176 | the arrows show the first of the previous and the next month, across year ends |
| `Navigation.MonthArrowsInverse` | client/src/pages/AdminPage/Calendar.jsx:170-176 | the two month arrows undo each other |
| `Navigation.PickMonthShows` | client/src/pages/AdminPage/Calendar.jsx:346-348 | picking a month name shows that month of the displayed year; a name not in the list shows December of the year before |
| `Navigation.PickMonthByName` | client/src/pages/AdminPage/Calendar.jsx:347-353 | each offered name picks its own month |
| `Navigation.YearOptions` | client/src/pages/AdminPage/Calendar.jsx:360 | the year picker offers ten years |
| `Navigation.PickYearShows` | client/src/pages/AdminPage/Calendar.jsx:355-360 | the years are consecutive with the displayed one sixth, and picking one keeps the displayed month |
| `Navigation.SelectDayShows` | client/src/pages/AdminPage/Calendar.jsx:182-185 | clicking a day selects that date of the displayed month and opens the day view |
| `Navigation.DayArrows` | client/src/pages/AdminPage/Calendar.jsx:187-188 | the day arrows move the selected date one day back or forward, across month and year ends, and undo each other |

## Left out

- `fetchBookings` is left out. It covers the HTTP calls, the stored token, the loading and error state, and the room and building name maps. The model takes the booking list as given, with names already attached.
- React state, hooks, memoisation, `console.log` effects and all JSX rendering are left out. This includes the CSS of `isToday` and `isSelected`, the department colours and the booking/bookings wording.
- The page mixes time zones: `new Date('YYYY-MM-DD')` parses in UTC, the constructor calls are local, and `toISOString` is UTC. The model uses one civil date and does not reproduce host-timezone drift.
- The `bookingsByTime` map and its `toLocaleTimeString` are left out. The page computes it but never reads it, and it is locale-dependent.
- `timeSlots` is computed but never rendered. Only its labels are modelled (`TimeFormat.TimeGrid`).
- The ISO branch of `formatTime` does not parse dates. A `Timestamp` carries the UTC clock that `new Date(raw)` would read, or `None` for an invalid date.
- `TimeFormat.FormatTime`: `parseInt` of the hour is modelled exactly on at most two digits.
- `TimeFormat.SlotKey`: the comparator's `parseInt` on longer digit runs is an unbounded integer here. It is not a 53-bit float, and it never becomes `Infinity` or `NaN`.
- `DaySlots.Key`: where the comparator throws, it stands in 0. `DaySlots.SortSlots` returns `None` in exactly those cases, so no ordering is claimed for them.
- `AlignedRecurrence.ExpandOneAligned`: the corrected expander corrects only the first cursor. It steps with the page's own `setMonth`, so a Monthly series anchored on day 29 to 31 keeps the page's rollover (`Recurrence.MonthlyRollover`).
- The cadence is a closed enumeration. With an unknown cadence string the source's loop never advances its cursor, so it runs forever when the series overlaps the displayed window; otherwise the early return or the loop guard yields nothing. Neither case is modelled.
- Dates of bookings are `Date` values. The source compares a one-off booking's `date` text, exactly as the API sends it, with the page's `YYYY-MM-DD` keys by string equality (Calendar.jsx:75, :264-265, :410). The model assumes the API sends exactly that form; a date sent in any other form, such as a full ISO timestamp, matches no cell and no day view in the source but is an ordinary date here.
- Date keys outside years 1000 to 9999: the page builds keys in two formats. A recurring copy's key comes from `toISOString().split('T')[0]` (Calendar.jsx:126). That pads the year to four digits and writes a sign and six digits from year 10000 on. The grid's key and the day view's key print the year unpadded (Calendar.jsx:264, :409). The formats agree only for years 1000 to 9999. Outside that range the page never shows a recurring copy in a cell or the day view, while the model, comparing dates, does.
- `CivilDates.JsDate`: the year is taken literally. `new Date(y, m, d)` reads a year of 0 to 99 as 1900 to 1999 and gives an invalid date beyond about 275,760 years from 1970; neither is modelled, so the year picker and the arrows are faithful only for years from 100 on.
- A missing field of the API (for example `recurrenceEndDate`) is `None`. Missing time text is the empty string.
- `Navigation.Step`: `goToToday` takes today's date as a parameter, because the model has no clock.
- The year picker's `parseInt` of the option text is modelled as the year itself.
- `Navigation.InvariantHolds` states the invariant for single events, not for whole event sequences.
- The profile page is not part of this model. It is HTTP, local storage and browser image handling.

## Findings

| source | as written | input that shows it | evidently intended | confidence | as-written member | corrected member |
|---|---|---|---|---|---|---|
| client/src/pages/AdminPage/Calendar.jsx:120-123 | a series anchored before the displayed month restarts on the 1st and steps from there | Weekly, anchored Tuesday 2024-02-27, viewed in March 2024: first shown on Friday 03-01; Monthly anchored 2024-02-15: shown on 03-01 | occurrences fall on the series' own steps (03-05, 03-12, …; 03-15) | medium, not executed | `AlignedRecurrence.WeeklyDriftAsWritten`, `AlignedRecurrence.MonthlyDriftAsWritten` | `AlignedRecurrence.ExpandOneAlignedExact`, `AlignedRecurrence.WeeklyDriftCorrected`, `AlignedRecurrence.MonthlyDriftCorrected` |
| client/src/pages/AdminPage/Calendar.jsx:484-487 | a row's bookings are found by splitting its label at `" - "` and comparing the first two pieces | a booking whose start text is `9 - 10am` (kept by `formatTime`) and end `11am`: its row `9 - 10am - 11am` lists no booking | each booking is listed under the row of its own label | low, not executed | `DaySlots.SplitDropsBooking`, `DaySlots.RowAsWritten` | `DaySlots.Row`, `DaySlots.EachBookingOneRow` |

=== FILE: aligned.dfy ===
/**
 The recurrence expander with its cursor aligned to the series.

 As written, the expander starts a series' occurrences at the later of the
 anchor date and the first of the displayed month, so a series anchored in
 an earlier month restarts on the 1st rather than on its own cadence.  The
 corrected expander steps from the anchor until it reaches the month, and
 emits exactly the series dates that fall inside the displayed window.
 */
module AlignedRecurrence {
  import opened Options
  import opened CivilDates
  import opened Bookings
  import opened Recurrence

  /** Stepping `j` then `k` times is stepping `j + k` times. */
  lemma {:induction false} IterateAdd(d: Date, c: Cadence, j: nat, k: nat)
    ensures Iterate(d, c, j + k) == Iterate(Iterate(d, c, j), c, k)
    decreases j
  {
    if j > 0 {
      IterateAdd(Step(d, c), c, j - 1, k);
    }
  }

  /** Series dates never decrease with the step count. */
  lemma IterateMonotone(d: Date, c: Cadence, j: nat, k: nat)
    requires j <= k
    ensures OnOrBefore(Iterate(d, c, j), Iterate(d, c, k))
  {
    if j < k {
      IterateIncreasing(d, c, j, k);
    }
  }

  /** The number of steps from the anchor `d` to the first series date on or after `first`. */
  function AlignCount(d: Date, c: Cadence, first: Date): (k: nat)
    ensures OnOrBefore(first, Iterate(d, c, k))
    ensures forall j: nat :: j < k ==> Before(Iterate(d, c, j), first)
    decreases Remaining(d, first)
  {
    if OnOrBefore(first, d) then 0
    else
      var k := 1 + AlignCount(Step(d, c), c, first);
      assert forall j: nat :: 0 < j ==> Iterate(d, c, j) == Iterate(Step(d, c), c, j - 1);
      k
  }

  /** The first series date on or after `first`. */
  function AlignedCursor(b: Booking, c: Cadence, first: Date): Date {
    Iterate(b.date, c, AlignCount(b.date, c, first))
  }

  /** `processedBookings` for a single booking, with the cursor aligned to the series. */
  function ExpandOneAligned(b: Booking, view: Month): (r: seq<Booking>)
    ensures !IsShown(b) ==> r == []
    ensures IsShown(b) && b.recurring.None? ==> r == [b]
    ensures b.recurring.Some? ==>
              forall i :: 0 <= i < |r| ==> r[i] == OccurrenceOn(b, r[i].date) && MonthOf(r[i].date) == view
  {
    if !IsShown(b) then []
    else if b.recurring.None? then [b]
    else
      var c := b.recurring.value;
      var first := FirstDay(view);
      var last := LastDay(view);
      var end := if b.recurrenceEndDate.Some? then b.recurrenceEndDate.value else last;
      if Before(last, b.date) || Before(end, first) then []
      else
        var cursor := AlignedCursor(b, c, first);
        var r := Occurrences(b, c, cursor, end, last);
        assert forall i :: 0 <= i < |r| ==> MonthOf(r[i].date) == view by {
          forall i | 0 <= i < |r| ensures MonthOf(r[i].date) == view {
            IterateMonotone(cursor, c, 0, i);
            InMonthIff(r[i].date, view);
          }
        }
        r
  }

  /** Occurrence `i` of `r` is `b` on series step `k + i`. */
  predicate OnSteps(r: seq<Booking>, b: Booking, c: Cadence, k: nat) {
    forall i :: 0 <= i < |r| ==> r[i] == OccurrenceOn(b, Iterate(b.date, c, k + i))
  }

  /**
   The occurrence loop started on series step `k`: occurrence `i` is step
   `k + i`, and the steps from `k` on that stay inside the window are
   exactly the emitted ones.
   */
  lemma {:induction false} OccurrencesFromStep(b: Booking, c: Cadence, k: nat, end: Date, last: Date)
    ensures var r := Occurrences(b, c, Iterate(b.date, c, k), end, last);
            && OnSteps(r, b, c, k)
            && (forall j: nat :: k <= j ==>
                  (OnOrBefore(Iterate(b.date, c, j), end) && OnOrBefore(Iterate(b.date, c, j), last)
                   <==> j < k + |r|))
  {
    var r := Occurrences(b, c, Iterate(b.date, c, k), end, last);
    forall i | 0 <= i < |r|
      ensures r[i] == OccurrenceOn(b, Iterate(b.date, c, k + i))
    {
      IterateAdd(b.date, c, k, i);
    }
    forall j: nat | k <= j
      ensures OnOrBefore(Iterate(b.date, c, j), end) && OnOrBefore(Iterate(b.date, c, j), last)
              <==> j < k + |r|
    {
      if j < k + |r| {
        IterateAdd(b.date, c, k, j - k);
      } else {
        IterateAdd(b.date, c, k, |r|);
        IterateMonotone(b.date, c, k + |r|, j);
      }
    }
  }

  /** Occurrence `i` of the aligned expansion is the series date `k + i` steps after the anchor. */
  lemma ExpandOneAlignedSteps(b: Booking, view: Month)
    requires IsShown(b) && b.recurring.Some?
    ensures OnSteps(ExpandOneAligned(b, view), b, b.recurring.value, AlignCount(b.date, b.recurring.value, FirstDay(view)))
  {
    ExpandOneAlignedExact(b, view);
  }

  /**
   The aligned expander emits, in order, exactly the series dates
   `Iterate(anchor, c, j)` that lie inside the displayed month and on or
   before the series end: they are the steps `k .. k + |r| - 1` for the
   first step `k` that reaches the month.
   */
  lemma {:induction false} ExpandOneAlignedExact(b: Booking, view: Month)
    requires IsShown(b) && b.recurring.Some?
    ensures var r := ExpandOneAligned(b, view);
            var c := b.recurring.value;
            var k := AlignCount(b.date, c, FirstDay(view));
            var bound := Earlier(SeriesEnd(b, view), LastDay(view));
            && OnSteps(r, b, c, k)
            && (forall j: nat ::
                  OnOrBefore(FirstDay(view), Iterate(b.date, c, j)) && OnOrBefore(Iterate(b.date, c, j), bound)
                  <==> k <= j < k + |r|)
  {
    var r := ExpandOneAligned(b, view);
    var c := b.recurring.value;
    var first := FirstDay(view);
    var last := LastDay(view);
    var end := SeriesEnd(b, view);
    var bound := Earlier(end, last);
    var k := AlignCount(b.date, c, first);
    if Before(last, b.date) || Before(end, first) {
      assert r == [];
      forall j: nat
        ensures !(OnOrBefore(first, Iterate(b.date, c, j)) && OnOrBefore(Iterate(b.date, c, j), bound))
      {
        IterateMonotone(b.date, c, 0, j);
      }
    } else {
      assert r == Occurrences(b, c, Iterate(b.date, c, k), end, last);
      OccurrencesFromStep(b, c, k, end, last);
      forall j: nat
        ensures OnOrBefore(first, Iterate(b.date, c, j)) && OnOrBefore(Iterate(b.date, c, j), bound)
                <==> k <= j < k + |r|
      {
        if j < k {
          assert Before(Iterate(b.date, c, j), first);
        } else {
          IterateMonotone(b.date, c, k, j);
          assert OnOrBefore(Iterate(b.date, c, j), bound)
                 <==> OnOrBefore(Iterate(b.date, c, j), end) && OnOrBefore(Iterate(b.date, c, j), last);
        }
      }
    }
  }

  /**
   When some series date lies in the displayed window, the aligned
   expansion is non-empty and starts on the first series date of the month.
   */
  lemma ExpandOneAlignedFirst(b: Booking, view: Month, j: nat)
    requires IsShown(b) && b.recurring.Some?
    requires OnOrBefore(FirstDay(view), Iterate(b.date, b.recurring.value, j))
    requires OnOrBefore(Iterate(b.date, b.recurring.value, j), Earlier(SeriesEnd(b, view), LastDay(view)))
    ensures |ExpandOneAligned(b, view)| > 0
    ensures ExpandOneAligned(b, view)[0] == OccurrenceOn(b, AlignedCursor(b, b.recurring.value, FirstDay(view)))
  {
    ExpandOneAlignedExact(b, view);
    ExpandOneAlignedSteps(b, view);
  }

  /** An aligned Monthly series shows at most once in a month. */
  lemma ExpandOneAlignedMonthlyOnce(b: Booking, view: Month)
    requires IsShown(b) && b.recurring == Some(Monthly)
    ensures |ExpandOneAligned(b, view)| <= 1
  {
    var r := ExpandOneAligned(b, view);
    var k := AlignCount(b.date, Monthly, FirstDay(view));
    if |r| > 0 {
      ExpandOneAlignedExact(b, view);
      ExpandOneAlignedSteps(b, view);
      assert r[0].date == Iterate(b.date, Monthly, k);
      IterateStep(b.date, Monthly, k);
      assert Before(LastDay(view), Iterate(b.date, Monthly, k + 1));
    }
  }

  /** An aligned Monthly series with a date in the window shows exactly once, on that date. */
  lemma MonthlyAlignedOnce(b: Booking, view: Month, j: nat)
    requires IsShown(b) && b.recurring == Some(Monthly)
    requires OnOrBefore(FirstDay(view), Iterate(b.date, Monthly, j))
    requires OnOrBefore(Iterate(b.date, Monthly, j), Earlier(SeriesEnd(b, view), LastDay(view)))
    ensures ExpandOneAligned(b, view) == [OccurrenceOn(b, AlignedCursor(b, Monthly, FirstDay(view)))]
  {
    var r := ExpandOneAligned(b, view);
    ExpandOneAlignedFirst(b, view, j);
    ExpandOneAlignedMonthlyOnce(b, view);
    assert r == [r[0]];
  }

  /** A Weekly series keeps its weekday at every step. */
  lemma {:induction false} WeeklyKeepsWeekday(d: Date, j: nat)
    ensures Weekday(Iterate(d, Weekly, j)) == Weekday(d)
  {
    IterateProgression(d, Weekly, j);
    var x := Iterate(d, Weekly, j);
    var a := DayNumber(d) + 1;
    assert DayNumber(x) + 1 == a + 7 * j;
    WholeWeeks(a, j);
  }

  /** Whole weeks leave a day's place in the week unchanged. */
  lemma WholeWeeks(a: int, j: int)
    ensures (a + 7 * j) % 7 == a % 7
  {
    var q := a / 7;
    assert a + 7 * j == 7 * (q + j) + a % 7;
  }

  /** Occurrences on consecutive Weekly steps all fall on the anchor's weekday. */
  lemma OnWeeklyStepsWeekday(r: seq<Booking>, b: Booking, k: nat)
    requires OnSteps(r, b, Weekly, k)
    ensures forall i :: 0 <= i < |r| ==> Weekday(r[i].date) == Weekday(b.date)
  {
    forall i | 0 <= i < |r|
      ensures Weekday(r[i].date) == Weekday(b.date)
    {
      WeeklyKeepsWeekday(b.date, k + i);
    }
  }

  /** The aligned expander keeps a Weekly series on its own weekday. */
  lemma WeeklyAlignedOnWeekday(b: Booking, view: Month)
    requires IsShown(b) && b.recurring == Some(Weekly)
    ensures forall i :: 0 <= i < |ExpandOneAligned(b, view)| ==>
              Weekday(ExpandOneAligned(b, view)[i].date) == Weekday(b.date)
  {
    ExpandOneAlignedSteps(b, view);
    OnWeeklyStepsWeekday(ExpandOneAligned(b, view), b, AlignCount(b.date, Weekly, FirstDay(view)));
  }

  /** `processedBookings` over the whole list, with aligned cursors. */
  function ExpandAligned(bs: seq<Booking>, view: Month): (r: seq<Booking>)
    ensures forall o :: o in r ==> exists b :: b in bs && DerivedFrom(o, b, view)
  {
    if bs == [] then []
    else
      var head := ExpandOneAligned(bs[0], view);
      var tail := ExpandAligned(bs[1..], view);
      assert forall o :: o in head ==> DerivedFrom(o, bs[0], view);
      assert forall b :: b in bs[1..] ==> b in bs;
      head + tail
  }

  // ---------------------------------------------------------------------
  // The drift of the expander as written
  // ---------------------------------------------------------------------

  /** A shown Weekly booking anchored on Tuesday 2024-02-27, with no end date. */
  function TuesdaySeries(): Booking {
    Booking("1", "Standup", "Ops", Confirmed, YMD(2024, 2, 27),
            Timestamp("09:00", None), Timestamp("09:30", None),
            Some(Weekly), None, "Room A", "Main", false)
  }

  /** The same series anchored on Tuesday 2024-03-05, inside the displayed month. */
  function MarchFifthSeries(): Booking {
    TuesdaySeries().(date := YMD(2024, 3, 5))
  }

  /** Series step `i` from 2024-03-05 is the date seven days on per step, while inside March. */
  lemma MarchFifthStep(i: nat)
    requires i < 4
    ensures Iterate(YMD(2024, 3, 5), Weekly, i) == YMD(2024, 3, 5 + 7 * i)
  {
    var d: Date := YMD(2024, 3, 5);
    var t: Date := YMD(2024, 3, 5 + 7 * i);
    IterateProgression(d, Weekly, i);
    assert DayNumber(t) - DayNumber(d) == 7 * i;
    DayNumberInjective(Iterate(d, Weekly, i), t);
  }

  /** The window of that series in March runs from the 5th through the 31st: 27 days. */
  lemma MarchFifthWindow()
    ensures Later(MarchFifthSeries().date, FirstDay(YearMonth(2024, 3))) == YMD(2024, 3, 5)
    ensures Span(YMD(2024, 3, 5), Earlier(SeriesEnd(MarchFifthSeries(), YearMonth(2024, 3)), LastDay(YearMonth(2024, 3)))) == 27
  {
    assert Earlier(SeriesEnd(MarchFifthSeries(), YearMonth(2024, 3)), LastDay(YearMonth(2024, 3))) == YMD(2024, 3, 31);
    assert DayNumber(YMD(2024, 3, 31)) - DayNumber(YMD(2024, 3, 5)) == 26;
  }

  lemma WeeklyInMarchCount()
    ensures |ExpandOne(MarchFifthSeries(), YearMonth(2024, 3))| == 4
  {
    MarchFifthWindow();
    ExpandOneCount(MarchFifthSeries(), YearMonth(2024, 3));
  }

  /** A Weekly series anchored inside March shows on the 5th, 12th, 19th and 26th. */
  lemma WeeklyInMarch()
    ensures |ExpandOne(MarchFifthSeries(), YearMonth(2024, 3))| == 4
    ensures forall i :: 0 <= i < 4 ==>
              ExpandOne(MarchFifthSeries(), YearMonth(2024, 3))[i] == OccurrenceOn(MarchFifthSeries(), YMD(2024, 3, 5 + 7 * i))
  {
    var b := MarchFifthSeries();
    var march := YearMonth(2024, 3);
    WeeklyInMarchCount();
    MarchFifthWindow();
    ExpandOneWindow(b, march);
    forall i | 0 <= i < 4
      ensures ExpandOne(b, march)[i] == OccurrenceOn(b, YMD(2024, 3, 5 + 7 * i))
    {
      MarchFifthStep(i);
    }
  }

  /**
   In March 2024 the expander as written starts the Tuesday series on
   Friday 2024-03-01, three days after the anchor and so on no step of the
   Weekly series.
   */
  lemma WeeklyDriftAsWritten()
    ensures var b := TuesdaySeries();
            && |ExpandOne(b, YearMonth(2024, 3))| > 0
            && ExpandOne(b, YearMonth(2024, 3))[0].date == YMD(2024, 3, 1)
            && (forall j: nat :: Iterate(b.date, Weekly, j) != YMD(2024, 3, 1))
  {
    var b := TuesdaySeries();
    ExpandOneWindow(b, YearMonth(2024, 3));
    AddDaysDayNumber(b.date, 3);
    assert AddDays(b.date, 3) == YMD(2024, 3, 1);
    forall j: nat
      ensures Iterate(b.date, Weekly, j) != YMD(2024, 3, 1)
    {
      IterateProgression(b.date, Weekly, j);
    }
  }

  /** The aligned expander starts the same series on Tuesday 2024-03-05. */
  lemma WeeklyDriftCorrected()
    ensures var b := TuesdaySeries();
            && |ExpandOneAligned(b, YearMonth(2024, 3))| > 0
            && ExpandOneAligned(b, YearMonth(2024, 3))[0].date == YMD(2024, 3, 5)
  {
    var b := TuesdaySeries();
    var march := YearMonth(2024, 3);
    var k := AlignCount(b.date, Weekly, FirstDay(march));
    assert Iterate(b.date, Weekly, 0) == YMD(2024, 2, 27);
    assert Iterate(b.date, Weekly, 1) == YMD(2024, 3, 5);
    assert k == 1;
    ExpandOneAlignedFirst(b, march, 1);
  }

  /** A shown Monthly booking anchored on 2024-02-15 and ending 2024-04-20. */
  function FifteenthSeries(): Booking {
    TuesdaySeries().(date := YMD(2024, 2, 15), recurring := Some(Monthly), recurrenceEndDate := Some(YMD(2024, 4, 20)))
  }

  /** As written, a Monthly series anchored on the 15th shows in the next month on the 1st. */
  lemma MonthlyDriftAsWritten()
    ensures ExpandOne(FifteenthSeries(), YearMonth(2024, 3)) == [OccurrenceOn(FifteenthSeries(), YMD(2024, 3, 1))]
  {
    var b := FifteenthSeries();
    var march := YearMonth(2024, 3);
    ExpandOneWindow(b, march);
    ExpandOneCount(b, march);
  }

  /** Aligned, the same series shows on the 15th. */
  lemma MonthlyDriftCorrected()
    ensures ExpandOneAligned(FifteenthSeries(), YearMonth(2024, 3)) == [OccurrenceOn(FifteenthSeries(), YMD(2024, 3, 15))]
  {
    var b := FifteenthSeries();
    var march := YearMonth(2024, 3);
    assert Iterate(b.date, Monthly, 0) == YMD(2024, 2, 15);
    assert Iterate(b.date, Monthly, 1) == YMD(2024, 3, 15);
    assert AlignCount(b.date, Monthly, FirstDay(march)) == 1;
    MonthlyAlignedOnce(b, march, 1);
  }
}

=== FILE: bookings.dfy ===
/**
 The booking record the calendar receives from the booking API, after the
 fetch layer has attached room and building names.  String-valued enums of
 the API become closed datatypes here.
 */
module Bookings {
  import opened Options
  import opened CivilDates

  /** `status`: anything other than `pending`/`declined` is shown. */
  datatype Status = Pending | Confirmed | Declined | OtherStatus(name: OtherName)

  /** A status spelling other than the three the page compares against. */
  type OtherName = s: string | s != "pending" && s != "confirmed" && s != "declined" witness ""

  /** The step of a recurring series (`recurring` is `Daily`, `Weekly` or `Monthly`). */
  datatype Cadence = Daily | Weekly | Monthly

  /** A UTC wall-clock reading, as `getUTCHours()`/`getUTCMinutes()` return it. */
  datatype Clock = Clock(hour: nat, minute: nat)

  type UtcClock = c: Clock | c.hour < 24 && c.minute < 60 witness Clock(0, 0)

  /**
   A time field as the API sends it: the raw text, and what `new Date(raw)`
   reads in UTC when that parse succeeds (`None` for an invalid date).
   */
  datatype Timestamp = Timestamp(raw: string, utc: Option<UtcClock>)

  /**
   A booking, or one occurrence of a recurring booking.  `recurring` is
   `None` when the API field is absent, empty or `'No'`.  `isRecurring`
   is set on generated occurrences.
   */
  datatype Booking = Booking(
    id: string,
    title: string,
    department: string,
    status: Status,
    date: Date,
    startTime: Timestamp,
    endTime: Timestamp,
    recurring: Option<Cadence>,
    recurrenceEndDate: Option<Date>,
    roomName: string,
    buildingName: string,
    isRecurring: bool)

  /** Bookings the calendar shows at all. */
  predicate IsShown(b: Booking) {
    b.status != Pending && b.status != Declined
  }

  /** `b` projected onto `date` as a generated occurrence. */
  function OccurrenceOn(b: Booking, date: Date): Booking {
    b.(date := date, isRecurring := true)
  }
}

=== FILE: dates.dfy ===
/**
 Civil-date arithmetic used by the admin calendar.

 The calendar works with JavaScript `Date` values only at day granularity:
 it builds them with `new Date(year, monthIndex, day)`, moves them with
 `setDate`/`setMonth`, compares them with `<=`/`>` (which compares time
 values, i.e. day numbers) and reads back `getDate()`/`getDay()`.  Here a
 date is an abstract proleptic-Gregorian `(year, month, day)` triple with a
 1-based month, ordered by its day number.
 */
module CivilDates {

  /** A calendar triple; only the valid ones form the type `Date`. */
  datatype YMD = YMD(year: int, month: int, day: int)

  /** A displayed month: a year and a 1-based month number. */
  datatype YearMonth = YearMonth(year: int, month: int)

  type Month = ym: YearMonth | 1 <= ym.month <= 12 witness YearMonth(1970, 1)

  predicate IsLeapYear(y: int) {
    y % 4 == 0 && (y % 100 != 0 || y % 400 == 0)
  }

  /** Gregorian month length. */
  function DaysInMonth(y: int, m: int): (n: int)
    requires 1 <= m <= 12
    ensures 28 <= n <= 31
    ensures m == 2 <==> n < 30
    ensures n == 29 <==> m == 2 && IsLeapYear(y)
  {
    if m == 2 then (if IsLeapYear(y) then 29 else 28)
    else if m == 4 || m == 6 || m == 9 || m == 11 then 30
    else 31
  }

  predicate IsValid(d: YMD) {
    1 <= d.month <= 12 && 1 <= d.day <= DaysInMonth(d.year, d.month)
  }

  type Date = d: YMD | IsValid(d) witness YMD(1970, 1, 1)

  function Length(ym: Month): int {
    DaysInMonth(ym.year, ym.month)
  }

  function MonthOf(d: Date): Month {
    YearMonth(d.year, d.month)
  }

  function FirstDay(ym: Month): Date {
    YMD(ym.year, ym.month, 1)
  }

  function LastDay(ym: Month): Date {
    YMD(ym.year, ym.month, Length(ym))
  }

  /** The month after `ym`. */
  function Succ(ym: Month): Month {
    if ym.month == 12 then YearMonth(ym.year + 1, 1) else YearMonth(ym.year, ym.month + 1)
  }

  /** The month before `ym`. */
  function Pred(ym: Month): Month {
    if ym.month == 1 then YearMonth(ym.year - 1, 12) else YearMonth(ym.year, ym.month - 1)
  }

  lemma SuccPredInverse(ym: Month)
    ensures Succ(Pred(ym)) == ym && Pred(Succ(ym)) == ym
  {
  }

  // ---------------------------------------------------------------------
  // Day numbers: 0 is 0001-01-01 of the proleptic Gregorian calendar.
  // ---------------------------------------------------------------------

  function DaysInYear(y: int): int {
    if IsLeapYear(y) then 366 else 365
  }

  /** Days of year `y` before the first of month `m`; `m == 13` is the whole year. */
  function DaysBeforeMonth(y: int, m: int): int
    requires 1 <= m <= 13
  {
    var leap := if IsLeapYear(y) then 1 else 0;
    if m == 1 then 0
    else if m == 2 then 31
    else [59, 90, 120, 151, 181, 212, 243, 273, 304, 334, 365][m - 3] + leap
  }

  /** Days of all years before year `y`, counted from year 1. */
  function DaysBeforeYear(y: int): int {
    365 * (y - 1) + (y - 1) / 4 - (y - 1) / 100 + (y - 1) / 400
  }

  function DayNumber(d: Date): int {
    DaysBeforeYear(d.year) + DaysBeforeMonth(d.year, d.month) + d.day - 1
  }

  /** The cumulative month table agrees with the month lengths. */
  lemma DaysBeforeMonthStep(y: int, m: int)
    requires 1 <= m <= 12
    ensures DaysBeforeMonth(y, m + 1) == DaysBeforeMonth(y, m) + DaysInMonth(y, m)
    ensures DaysBeforeMonth(y, 13) == DaysInYear(y)
  {
  }

  lemma DaysBeforeMonthMonotone(y: int, m1: int, m2: int)
    requires 1 <= m1 <= m2 <= 13
    ensures DaysBeforeMonth(y, m1) + 28 * (m2 - m1) <= DaysBeforeMonth(y, m2)
    decreases m2 - m1
  {
    if m1 < m2 {
      DaysBeforeMonthStep(y, m2 - 1);
      DaysBeforeMonthMonotone(y, m1, m2 - 1);
    }
  }

  /** Moving from `y - 1` to `y` changes `y / k` by one exactly when `k` divides `y`. */
  lemma QuotientStep(y: int)
    ensures y / 4 - (y - 1) / 4 == (if y % 4 == 0 then 1 else 0)
    ensures y / 100 - (y - 1) / 100 == (if y % 100 == 0 then 1 else 0)
    ensures y / 400 - (y - 1) / 400 == (if y % 400 == 0 then 1 else 0)
    ensures y % 100 == 0 ==> y % 4 == 0
    ensures y % 400 == 0 ==> y % 100 == 0
  {
  }

  /** The closed form for whole years adds exactly one year length per year. */
  lemma DaysBeforeYearStep(y: int)
    ensures DaysBeforeYear(y + 1) == DaysBeforeYear(y) + DaysInYear(y)
  {
    QuotientStep(y);
  }

  lemma DaysBeforeYearMonotone(y1: int, y2: int)
    requires y1 <= y2
    ensures DaysBeforeYear(y1) + 365 * (y2 - y1) <= DaysBeforeYear(y2)
    decreases y2 - y1
  {
    if y1 < y2 {
      DaysBeforeYearStep(y2 - 1);
      DaysBeforeYearMonotone(y1, y2 - 1);
    }
  }

  /** The first of the next month comes exactly one month length after this month's first. */
  lemma {:induction false} FirstDayOfSucc(ym: Month)
    ensures DayNumber(FirstDay(Succ(ym))) == DayNumber(FirstDay(ym)) + Length(ym)
  {
    DaysBeforeMonthStep(ym.year, ym.month);
    if ym.month == 12 {
      DaysBeforeYearStep(ym.year);
    }
  }

  /** Strict lexicographic order on valid triples. */
  predicate LexBefore(a: Date, b: Date) {
    a.year < b.year
    || (a.year == b.year && a.month < b.month)
    || (a.year == b.year && a.month == b.month && a.day < b.day)
  }

  /** Day numbers strictly increase along the lexicographic order. */
  lemma {:induction false} DayNumberStrict(a: Date, b: Date)
    requires LexBefore(a, b)
    ensures DayNumber(a) < DayNumber(b)
  {
    if a.year < b.year {
      DaysBeforeMonthMonotone(a.year, a.month + 1, 13);
      DaysBeforeMonthStep(a.year, a.month);
      DaysBeforeYearStep(a.year);
      DaysBeforeYearMonotone(a.year + 1, b.year);
    } else if a.month < b.month {
      DaysBeforeMonthStep(a.year, a.month);
      DaysBeforeMonthMonotone(a.year, a.month + 1, b.month);
    }
  }

  /** Comparing day numbers is comparing the triples lexicographically. */
  lemma DayNumberOrderIsLexicographic(a: Date, b: Date)
    ensures DayNumber(a) < DayNumber(b) <==> LexBefore(a, b)
    ensures DayNumber(a) == DayNumber(b) <==> a == b
  {
    if LexBefore(a, b) {
      DayNumberStrict(a, b);
    } else if LexBefore(b, a) {
      DayNumberStrict(b, a);
    }
  }

  lemma DayNumberInjective(a: Date, b: Date)
    requires DayNumber(a) == DayNumber(b)
    ensures a == b
  {
    DayNumberOrderIsLexicographic(a, b);
  }

  // ---------------------------------------------------------------------
  // Ordering as the calendar uses it.  JS compares `Date`s by time value,
  // i.e. by day number; `Rank` is a cheaper linear key proved to order
  // valid dates the same way.
  // ---------------------------------------------------------------------

  /** A linear key that orders valid dates lexicographically (a month spans at most 31 ranks). */
  function Rank(d: Date): int {
    d.year * 372 + (d.month - 1) * 31 + d.day - 1
  }

  predicate OnOrBefore(a: Date, b: Date) {
    Rank(a) <= Rank(b)
  }

  predicate Before(a: Date, b: Date) {
    Rank(a) < Rank(b)
  }

  /** Date comparison by rank is JS time-value comparison, and equal ranks are equal dates. */
  lemma {:induction false} RankIsTimeOrder(a: Date, b: Date)
    ensures Before(a, b) <==> DayNumber(a) < DayNumber(b)
    ensures OnOrBefore(a, b) <==> DayNumber(a) <= DayNumber(b)
    ensures Rank(a) == Rank(b) <==> a == b
  {
    assert Before(a, b) <==> LexBefore(a, b);
    assert Before(b, a) <==> LexBefore(b, a);
    DayNumberOrderIsLexicographic(a, b);
    DayNumberOrderIsLexicographic(b, a);
  }

  /** The days of a month are exactly the dates from its first to its last. */
  lemma InMonthIff(d: Date, ym: Month)
    ensures OnOrBefore(FirstDay(ym), d) && OnOrBefore(d, LastDay(ym)) <==> MonthOf(d) == ym
  {
    var n := Length(ym);
    assert 1 <= d.day <= 31 && 28 <= n <= 31;
    assert Rank(FirstDay(ym)) == ym.year * 372 + (ym.month - 1) * 31;
    assert Rank(LastDay(ym)) == ym.year * 372 + (ym.month - 1) * 31 + n - 1;
    if d.year < ym.year {
      assert Rank(d) < Rank(FirstDay(ym));
    } else if d.year > ym.year {
      assert Rank(d) > Rank(LastDay(ym));
    }
  }

  /** `new Date(Math.max(a, b))`. */
  function Later(a: Date, b: Date): (r: Date)
    ensures OnOrBefore(a, r) && OnOrBefore(b, r)
    ensures r == a || r == b
  {
    if Rank(a) >= Rank(b) then a else b
  }

  function Earlier(a: Date, b: Date): (r: Date)
    ensures OnOrBefore(r, a) && OnOrBefore(r, b)
    ensures r == a || r == b
  {
    if Rank(a) <= Rank(b) then a else b
  }

  // ---------------------------------------------------------------------
  // `new Date(year, monthIndex, day)`: out-of-range months carry into the
  // year, out-of-range days walk into neighbouring months.
  // ---------------------------------------------------------------------

  /** The month a 0-based, possibly out-of-range month index denotes. */
  function NormalMonth(year: int, monthIndex: int): (ym: Month)
    ensures ym.year * 12 + ym.month - 1 == year * 12 + monthIndex
  {
    YearMonth(year + monthIndex / 12, monthIndex % 12 + 1)
  }

  /** Day `d >= 1` counted from the first of `ym`, spilling into later months. */
  function CountForward(ym: Month, d: int): (r: Date)
    requires d >= 1
    ensures DayNumber(r) == DayNumber(FirstDay(ym)) + d - 1
    decreases d
  {
    if d <= Length(ym) then YMD(ym.year, ym.month, d)
    else
      FirstDayOfSucc(ym);
      CountForward(Succ(ym), d - Length(ym))
  }

  /** Day `d <= 0` of `ym`, i.e. `1 - d` days before its first, in earlier months. */
  function CountBackward(ym: Month, d: int): (r: Date)
    requires d <= 0
    ensures DayNumber(r) == DayNumber(FirstDay(ym)) + d - 1
    decreases -d
  {
    var p := Pred(ym);
    FirstDayOfSucc(p);
    SuccPredInverse(ym);
    if d + Length(p) >= 1 then YMD(p.year, p.month, d + Length(p))
    else CountBackward(p, d + Length(p))
  }

  /** `new Date(year, monthIndex, day)` read back at day granularity. */
  function JsDate(year: int, monthIndex: int, day: int): (r: Date)
    ensures DayNumber(r) == DayNumber(FirstDay(NormalMonth(year, monthIndex))) + day - 1
  {
    DayOfMonth(NormalMonth(year, monthIndex), day)
  }

  /** An in-range constructor call yields exactly the triple it names. */
  lemma {:induction false} JsDateInRange(ym: Month, day: int)
    requires 1 <= day <= Length(ym)
    ensures JsDate(ym.year, ym.month - 1, day) == YMD(ym.year, ym.month, day)
  {
    assert NormalMonth(ym.year, ym.month - 1) == ym;
  }

  /** A constructor call with the month's own index counts days from its first. */
  lemma JsDateOffset(ym: Month, day: int)
    ensures DayNumber(JsDate(ym.year, ym.month - 1, day)) == DayNumber(FirstDay(ym)) + day - 1
  {
    assert NormalMonth(ym.year, ym.month - 1) == ym;
  }

  /** `new Date(y, m, 0)` is the last day of the month before month index `m`. */
  lemma {:induction false} JsDateDayZero(ym: Month)
    ensures JsDate(ym.year, ym.month, 0) == LastDay(ym)
  {
    var next := NormalMonth(ym.year, ym.month);
    assert next == Succ(ym);
    SuccPredInverse(ym);
    FirstDayOfSucc(ym);
    DayNumberInjective(JsDate(ym.year, ym.month, 0), LastDay(ym));
  }

  /** Day `day` counted from the first of `ym`, walking into neighbouring months when out of range. */
  function DayOfMonth(ym: Month, day: int): (r: Date)
    ensures DayNumber(r) == DayNumber(FirstDay(ym)) + day - 1
  {
    if day >= 1 then CountForward(ym, day) else CountBackward(ym, day)
  }

  /**
   `d.setDate(d.getDate() + n)` for the short moves the calendar makes
   (one day back or forward, one week forward): the result lies in the same
   month or a neighbouring one.
   */
  function AddDays(d: Date, n: int): (r: Date)
    requires -28 <= n <= 28
    ensures n > 0 ==> Before(d, r)
    ensures n < 0 ==> Before(r, d)
    ensures n == 0 ==> r == d
  {
    var ym := MonthOf(d);
    if d.day + n > Length(ym) then YMD(Succ(ym).year, Succ(ym).month, d.day + n - Length(ym))
    else if d.day + n < 1 then YMD(Pred(ym).year, Pred(ym).month, d.day + n + Length(Pred(ym)))
    else YMD(d.year, d.month, d.day + n)
  }

  /** `AddDays` moves the day number by exactly `n`. */
  lemma {:induction false} AddDaysDayNumber(d: Date, n: int)
    requires -28 <= n <= 28
    ensures DayNumber(AddDays(d, n)) == DayNumber(d) + n
  {
    var ym := MonthOf(d);
    FirstDayOfSucc(ym);
    FirstDayOfSucc(Pred(ym));
    SuccPredInverse(ym);
  }

  /** `AddDays` is the constructor call `setDate` makes. */
  lemma {:induction false} AddDaysIsSetDate(d: Date, n: int)
    requires -28 <= n <= 28
    ensures AddDays(d, n) == JsDate(d.year, d.month - 1, d.day + n)
  {
    assert NormalMonth(d.year, d.month - 1) == MonthOf(d);
    AddDaysDayNumber(d, n);
    DayNumberInjective(AddDays(d, n), JsDate(d.year, d.month - 1, d.day + n));
  }

  /**
   `d.setMonth(d.getMonth() + 1)`: the same day of the month in the next
   month, overflowing into the month after when the next month is shorter.
   */
  function AddOneMonth(d: Date): (r: Date)
    ensures Before(d, r)
    ensures Before(LastDay(MonthOf(d)), r)
  {
    var next := Succ(MonthOf(d));
    if d.day <= Length(next) then YMD(next.year, next.month, d.day)
    else YMD(Succ(next).year, Succ(next).month, d.day - Length(next))
  }

  /** `AddOneMonth` is the constructor call `setMonth` makes. */
  lemma {:induction false} AddOneMonthIsSetMonth(d: Date)
    ensures AddOneMonth(d) == JsDate(d.year, d.month, d.day)
  {
    var next := Succ(MonthOf(d));
    assert NormalMonth(d.year, d.month) == next;
    FirstDayOfSucc(next);
    DayNumberInjective(AddOneMonth(d), JsDate(d.year, d.month, d.day));
  }

  /** Day of the week, 0 = Sunday, as `getDay()` returns it. */
  function Weekday(d: Date): (w: int)
    ensures 0 <= w < 7
  {
    (DayNumber(d) + 1) % 7
  }

  /** 2024-03-01 is a Friday (`getDay()` 5), which pins day number 0 to a Monday. */
  lemma WeekdayAnchor()
    ensures Weekday(YMD(2024, 3, 1)) == 5
  {
  }

  /** Moving `n` days moves the weekday by `n` modulo 7. */
  lemma WeekdayAddDays(d: Date, n: int)
    requires -28 <= n <= 28
    ensures Weekday(AddDays(d, n)) == (Weekday(d) + n) % 7
  {
    AddDaysDayNumber(d, n);
    ModSevenShift(DayNumber(d) + 1, n);
  }

  lemma ModSevenShift(a: int, n: int)
    ensures (a + n) % 7 == (a % 7 + n) % 7
  {
    var q := a / 7;
    assert a == 7 * q + a % 7;
    assert a + n == 7 * q + (a % 7 + n);
  }

  /** The weekday of day `k` of a month, from the weekday of its first. */
  lemma {:induction false} WeekdayInMonth(ym: Month, k: int)
    requires 1 <= k <= Length(ym)
    ensures Weekday(YMD(ym.year, ym.month, k)) == (Weekday(FirstDay(ym)) + k - 1) % 7
  {
    ModSevenShift(DayNumber(FirstDay(ym)) + 1, k - 1);
  }

  /** `ym`'s days, counted from its first, never reach the first of the next month. */
  lemma {:induction false} LastDayNumber(ym: Month)
    ensures DayNumber(LastDay(ym)) + 1 == DayNumber(FirstDay(Succ(ym)))
  {
    FirstDayOfSucc(ym);
  }
}

=== FILE: day_slots.dfy ===
/**
 The day view: the distinct time rows of a day's bookings (`uniqueTimeSlots`),
 sorted by the start clock read back from each row's label, and the bookings
 listed under each row.
 */
module DaySlots {
  import opened Options
  import opened Bookings
  import opened TimeFormat
  import opened CivilDates

  // ---------------------------------------------------------------------
  // Row labels and `[...new Set(labels)]`
  // ---------------------------------------------------------------------

  /**
   A booking's row label: `${formatTime(startTime)} - ${formatTime(endTime)}`;
   its start part is the formatted start time when that holds no `-`.
   */
  function Label(b: Booking): (r: string)
    ensures NoDash(FormatTime(b.startTime)) ==> StartPart(r) == FormatTime(b.startTime)
  {
    var start := FormatTime(b.startTime);
    var end := FormatTime(b.endTime);
    if NoDash(start) then StartPartOfLabel(start, end); start + " - " + end
    else start + " - " + end
  }

  function Labels(bs: seq<Booking>): (r: seq<string>)
    ensures |r| == |bs| && forall i :: 0 <= i < |bs| ==> r[i] == Label(bs[i])
  {
    seq(|bs|, i requires 0 <= i < |bs| => Label(bs[i]))
  }

  predicate Distinct(s: seq<string>) {
    forall i, j :: 0 <= i < j < |s| ==> s[i] != s[j]
  }

  /** The index of the first occurrence of `x` in `xs`. */
  function First(xs: seq<string>, x: string): (i: nat)
    requires x in xs
    ensures i < |xs| && xs[i] == x
    ensures forall j :: 0 <= j < i ==> xs[j] != x
  {
    if xs[0] == x then 0 else 1 + First(xs[1..], x)
  }

  /** `[...new Set(xs)]`: each value once, at the place it first occurs. */
  function Dedup(xs: seq<string>): (r: seq<string>)
    ensures forall x :: x in r <==> x in xs
    ensures Distinct(r)
  {
    if xs == [] then []
    else
      var init := Dedup(xs[..|xs| - 1]);
      var x := xs[|xs| - 1];
      assert xs == xs[..|xs| - 1] + [x];
      if x in init then init else init + [x]
  }

  lemma FirstSnoc(xs: seq<string>, y: string, x: string)
    requires x in xs
    ensures First(xs + [y], x) == First(xs, x)
  {
    var i := First(xs, x);
    var k := First(xs + [y], x);
    assert (xs + [y])[i] == x;
    assert k <= i;
    assert xs[k] == x;
  }

  /**
   The set keeps first-occurrence order: of two distinct values, the one
   that occurs first in `xs` comes first.
   */
  lemma {:induction false} DedupFirstOrder(xs: seq<string>)
    ensures forall i, j :: 0 <= i < j < |Dedup(xs)| ==> First(xs, Dedup(xs)[i]) < First(xs, Dedup(xs)[j])
  {
    if xs != [] {
      var init := xs[..|xs| - 1];
      var x := xs[|xs| - 1];
      var d := Dedup(init);
      var r := Dedup(xs);
      assert xs == init + [x];
      DedupFirstOrder(init);
      assert r == d || r == d + [x];
      forall i, j | 0 <= i < j < |r|
        ensures First(xs, r[i]) < First(xs, r[j])
      {
        assert r[i] == d[i] && d[i] in init;
        FirstSnoc(init, x, d[i]);
        if j < |d| {
          assert r[j] == d[j] && d[j] in init;
          FirstSnoc(init, x, d[j]);
          assert First(init, d[i]) < First(init, d[j]);
        } else {
          assert r[j] == x && x !in init;
          assert First(xs, x) == |init|;
          assert First(init, d[i]) < |init|;
        }
      }
    }
  }

  // ---------------------------------------------------------------------
  // The sort by start clock
  // ---------------------------------------------------------------------

  /** The comparator's `getStart`, with 0 standing in where it throws. */
  function Key(slot: string): int {
    SlotKey(slot).GetOr(0)
  }

  /** A booking whose start is `H:MM` or `H:MM:SS` text of the day sorts its row by that clock. */
  lemma RowKeyOfClockStart(b: Booking, h: nat, mm: string, m: nat)
    requires !HasAmPm(b.startTime.raw) && !('T' in b.startTime.raw && b.startTime.utc.Some?)
    requires MatchClock(b.startTime.raw) == Some(ClockText(h, mm)) && h < 24
    requires |mm| == 2 && AllDigits(mm) && DigitsValue(mm) == m
    ensures SlotKey(Label(b)) == Some(h * 60 + m)
  {
    FormatTimeClockKey(b.startTime, h, mm, m, FormatTime(b.endTime));
  }

  /** A booking whose start is an ISO timestamp read as the UTC clock `c` sorts its row by `c`. */
  lemma RowKeyOfIsoStart(b: Booking, c: UtcClock)
    requires !HasAmPm(b.startTime.raw) && 'T' in b.startTime.raw && b.startTime.utc == Some(c)
    ensures SlotKey(Label(b)) == Some(c.hour * 60 + c.minute)
  {
    FormatTimeIsoKey(b.startTime, c, FormatTime(b.endTime));
  }

  /** `s` is ordered by `key` (the comparator's result is never positive). */
  predicate Sorted(s: seq<string>, key: string -> int) {
    forall i, j :: 0 <= i < j < |s| ==> key(s[i]) <= key(s[j])
  }

  /** The labels of `s` whose key is `v`, in order. */
  function WithKey(s: seq<string>, key: string -> int, v: int): seq<string> {
    if s == [] then []
    else (if key(s[0]) == v then [s[0]] else []) + WithKey(s[1..], key, v)
  }

  /** Insert `x` before the first label whose key is not smaller. */
  function Insert(x: string, s: seq<string>, key: string -> int): (r: seq<string>)
    ensures multiset(r) == multiset(s) + multiset{x}
    ensures |r| == |s| + 1 && (r[0] == x || (s != [] && r[0] == s[0]))
  {
    if s == [] || key(x) <= key(s[0]) then [x] + s
    else
      assert s == [s[0]] + s[1..];
      [s[0]] + Insert(x, s[1..], key)
  }

  lemma {:induction false} InsertSorted(x: string, s: seq<string>, key: string -> int)
    requires Sorted(s, key)
    ensures Sorted(Insert(x, s, key), key)
  {
    if s != [] && key(x) > key(s[0]) {
      InsertSorted(x, s[1..], key);
      var r := Insert(x, s, key);
      var t := Insert(x, s[1..], key);
      assert r == [s[0]] + t;
      assert |s| > 1 ==> key(s[0]) <= key(s[1]);
      assert key(s[0]) <= key(t[0]);
      forall i, j | 0 <= i < j < |r|
        ensures key(r[i]) <= key(r[j])
      {
        if i > 0 {
          assert r[i] == t[i - 1] && r[j] == t[j - 1];
        } else {
          assert r[j] == t[j - 1];
          assert key(t[0]) <= key(t[j - 1]);
        }
      }
    }
  }

  lemma {:induction false} InsertWithKey(x: string, s: seq<string>, key: string -> int, v: int)
    ensures WithKey(Insert(x, s, key), key, v) == if key(x) == v then [x] + WithKey(s, key, v) else WithKey(s, key, v)
  {
    var r := Insert(x, s, key);
    if s != [] && key(x) > key(s[0]) {
      var t := Insert(x, s[1..], key);
      InsertWithKey(x, s[1..], key, v);
      assert r[0] == s[0] && r[1..] == t;
      var head := if key(s[0]) == v then [s[0]] else [];
      assert WithKey(r, key, v) == head + WithKey(t, key, v);
      assert WithKey(s, key, v) == head + WithKey(s[1..], key, v);
      if key(x) == v {
        assert head == [];
      }
    } else {
      assert r[0] == x && r[1..] == s;
      assert WithKey(r, key, v) == (if key(x) == v then [x] else []) + WithKey(s, key, v);
    }
  }

  /** The stable insertion sort by `key`. */
  function Sort(xs: seq<string>, key: string -> int): (r: seq<string>)
    ensures Sorted(r, key)
    ensures multiset(r) == multiset(xs)
  {
    if xs == [] then []
    else
      assert xs == [xs[0]] + xs[1..];
      InsertSorted(xs[0], Sort(xs[1..], key), key);
      Insert(xs[0], Sort(xs[1..], key), key)
  }

  /** The sort is stable: labels of equal key keep their relative order. */
  lemma {:induction false} SortStable(xs: seq<string>, key: string -> int, v: int)
    ensures WithKey(Sort(xs, key), key, v) == WithKey(xs, key, v)
  {
    if xs != [] {
      SortStable(xs[1..], key, v);
      InsertWithKey(xs[0], Sort(xs[1..], key), key, v);
    }
  }

  /** A distinct sequence holds each value at most once. */
  lemma {:induction false} DistinctCount(s: seq<string>, x: string)
    requires Distinct(s)
    ensures multiset(s)[x] <= 1
  {
    if s != [] {
      assert s == [s[0]] + s[1..];
      DistinctCount(s[1..], x);
      if s[0] == x {
        assert x !in s[1..];
      }
    }
  }

  /** Two equal entries at different places count twice. */
  lemma CountTwo(t: seq<string>, i: nat, j: nat)
    requires i < j < |t|
    ensures t[i] == t[j] ==> multiset(t)[t[i]] >= 2
  {
    assert t == t[..i] + [t[i]] + t[i + 1..j] + [t[j]] + t[j + 1..];
  }

  /** A permutation of distinct labels is distinct. */
  lemma DistinctPermutation(s: seq<string>, t: seq<string>)
    requires Distinct(s) && multiset(s) == multiset(t)
    ensures Distinct(t)
  {
    forall i, j | 0 <= i < j < |t|
      ensures t[i] != t[j]
    {
      DistinctCount(s, t[i]);
      CountTwo(t, i, j);
    }
  }

  /**
   `.sort((a, b) => getStart(a) - getStart(b))`: `None` where the
   comparator throws, which happens exactly when there are at least two
   labels (so every one of them is compared) and some label's start part
   holds no clock; otherwise the labels stably ordered by start clock.
   */
  function SortSlots(xs: seq<string>): (r: Option<seq<string>>)
    ensures r.None? <==> |xs| >= 2 && exists i :: 0 <= i < |xs| && SlotKey(xs[i]).None?
    ensures r.Some? ==> Sorted(r.value, Key) && multiset(r.value) == multiset(xs)
  {
    if |xs| >= 2 && exists i :: 0 <= i < |xs| && SlotKey(xs[i]).None? then None
    else Some(Sort(xs, Key))
  }

  /**
   When the sort succeeds on two or more labels, its order is the order of
   the start clocks read from the labels.
   */
  lemma SortSlotsByClock(xs: seq<string>)
    requires SortSlots(xs).Some? && |xs| >= 2
    ensures var r := SortSlots(xs).value;
            forall i, j :: 0 <= i < j < |r| ==>
              SlotKey(r[i]).Some? && SlotKey(r[j]).Some? && SlotKey(r[i]).value <= SlotKey(r[j]).value
  {
    var r := SortSlots(xs).value;
    forall k | 0 <= k < |r|
      ensures SlotKey(r[k]).Some?
    {
      assert r[k] in multiset(xs);
      var i :| 0 <= i < |xs| && xs[i] == r[k];
    }
  }

  /**
   `uniqueTimeSlots` of a day's bookings: it fails exactly when there are
   two or more distinct labels and some booking's label holds no clock.
   */
  function UniqueTimeSlots(dayBs: seq<Booking>): (r: Option<seq<string>>)
    ensures r.None? <==> |Dedup(Labels(dayBs))| >= 2 && exists b :: b in dayBs && SlotKey(Label(b)).None?
  {
    var d := Dedup(Labels(dayBs));
    UnkeyedLabel(dayBs, d);
    SortSlots(d)
  }

  /** Some distinct label holds no clock exactly when some booking's label does. */
  lemma UnkeyedLabel(dayBs: seq<Booking>, d: seq<string>)
    requires d == Dedup(Labels(dayBs))
    ensures (exists i :: 0 <= i < |d| && SlotKey(d[i]).None?) <==> exists b :: b in dayBs && SlotKey(Label(b)).None?
  {
    if i :| 0 <= i < |d| && SlotKey(d[i]).None? {
      assert d[i] in Labels(dayBs);
      var j :| 0 <= j < |dayBs| && Labels(dayBs)[j] == d[i];
      assert dayBs[j] in dayBs;
    }
    if b :| b in dayBs && SlotKey(Label(b)).None? {
      var j :| 0 <= j < |dayBs| && dayBs[j] == b;
      assert Labels(dayBs)[j] in d;
      var i :| 0 <= i < |d| && d[i] == Label(b);
    }
  }

  /**
   The rows are exactly the distinct labels of the day's bookings, each
   once, ordered by start clock (equal clocks in first-occurrence order).
   */
  lemma UniqueTimeSlotsRows(dayBs: seq<Booking>)
    requires UniqueTimeSlots(dayBs).Some?
    ensures var slots := UniqueTimeSlots(dayBs).value;
            && Distinct(slots)
            && (forall s :: s in slots <==> exists b :: b in dayBs && Label(b) == s)
            && Sorted(slots, Key)
            && forall v :: WithKey(slots, Key, v) == WithKey(Dedup(Labels(dayBs)), Key, v)
  {
    var d := Dedup(Labels(dayBs));
    var slots := UniqueTimeSlots(dayBs).value;
    assert slots == Sort(d, Key);
    DistinctPermutation(d, slots);
    forall s
      ensures s in slots <==> exists b :: b in dayBs && Label(b) == s
    {
      assert s in slots <==> s in multiset(d);
      if s in d {
        var i :| 0 <= i < |dayBs| && Labels(dayBs)[i] == s;
        assert dayBs[i] in dayBs;
      }
      if b :| b in dayBs && Label(b) == s {
        var i :| 0 <= i < |dayBs| && dayBs[i] == b;
        assert Labels(dayBs)[i] == s;
      }
    }
    forall v
      ensures WithKey(slots, Key, v) == WithKey(d, Key, v)
    {
      SortStable(d, Key, v);
    }
  }

  // ---------------------------------------------------------------------
  // The bookings under a row
  // ---------------------------------------------------------------------

  /** The bookings of `bs` that satisfy `p`, in order. */
  function Filter(bs: seq<Booking>, p: Booking -> bool): (r: seq<Booking>)
    ensures forall b :: b in r <==> b in bs && p(b)
  {
    if bs == [] then []
    else (if p(bs[0]) then [bs[0]] else []) + Filter(bs[1..], p)
  }

  lemma {:induction false} FilterAgree(bs: seq<Booking>, p: Booking -> bool, q: Booking -> bool)
    requires forall b :: b in bs ==> p(b) == q(b)
    ensures Filter(bs, p) == Filter(bs, q)
  {
    if bs != [] {
      FilterAgree(bs[1..], p, q);
    }
  }

  /** No separator `" - "` anywhere in `s`. */
  predicate NoSep(s: string) {
    forall j :: 0 <= j < |s| ==> !SepAt(s, j)
  }

  /**
   `slot.split(' - ')` keeping the first two pieces: the start text and
   the end text (`None` for `undefined` when there is no separator).
   */
  function SplitLabel(slot: string): (string, Option<string>) {
    match FindSep(slot, 0)
    case None => (slot, None)
    case Some(i) => (slot[..i], Some(StartPart(slot[i + 3..])))
  }

  /** The row's bookings as written: the two formatted times compared with the split pieces. */
  function RowAsWritten(dayBs: seq<Booking>, slot: string): (r: seq<Booking>)
    ensures forall b :: b in r <==>
              b in dayBs && FormatTime(b.startTime) == SplitLabel(slot).0 && Some(FormatTime(b.endTime)) == SplitLabel(slot).1
  {
    var (start, end) := SplitLabel(slot);
    Filter(dayBs, (b: Booking) => FormatTime(b.startTime) == start && Some(FormatTime(b.endTime)) == end)
  }

  /** The row's bookings compared by whole label. */
  function Row(dayBs: seq<Booking>, slot: string): (r: seq<Booking>)
    ensures forall b :: b in r <==> b in dayBs && Label(b) == slot
  {
    Filter(dayBs, b => Label(b) == slot)
  }

  /** Splitting a label whose start has no `-` and whose end has no separator gives back the two texts. */
  lemma SplitOfLabel(a: string, e: string)
    requires NoDash(a) && NoSep(e)
    ensures SplitLabel(a + " - " + e) == (a, Some(e))
  {
    var s := a + " - " + e;
    StartPartOfLabel(a, e);
    assert FindSep(s, 0) == Some(|a|);
    assert s[|a| + 3..] == e;
    assert FindSep(e, 0).None?;
  }

  /** A booking whose formatted start has no `-` and whose formatted end has no separator. */
  predicate Plain(b: Booking) {
    NoDash(FormatTime(b.startTime)) && NoSep(FormatTime(b.endTime))
  }

  /**
   On a day whose formatted times are plain, comparing the split pieces
   selects the same bookings as comparing whole labels.
   */
  lemma RowsAgree(dayBs: seq<Booking>, slot: string)
    requires forall b :: b in dayBs ==> Plain(b)
    requires exists b :: b in dayBs && Label(b) == slot
    ensures RowAsWritten(dayBs, slot) == Row(dayBs, slot)
  {
    var b0 :| b0 in dayBs && Label(b0) == slot;
    SplitOfLabel(FormatTime(b0.startTime), FormatTime(b0.endTime));
    var (start, end) := SplitLabel(slot);
    forall b | b in dayBs
      ensures (FormatTime(b.startTime) == start && Some(FormatTime(b.endTime)) == end) == (Label(b) == slot)
    {
      SplitOfLabel(FormatTime(b.startTime), FormatTime(b.endTime));
    }
    FilterAgree(dayBs, (b: Booking) => FormatTime(b.startTime) == start && Some(FormatTime(b.endTime)) == end, (b: Booking) => Label(b) == slot);
  }

  /** Every booking of the day is listed under exactly one row: the row of its own label. */
  lemma EachBookingOneRow(dayBs: seq<Booking>, b: Booking)
    requires UniqueTimeSlots(dayBs).Some? && b in dayBs
    ensures var slots := UniqueTimeSlots(dayBs).value;
            exists i :: 0 <= i < |slots| && slots[i] == Label(b) &&
              forall j :: 0 <= j < |slots| && b in Row(dayBs, slots[j]) ==> j == i
  {
    UniqueTimeSlotsRows(dayBs);
    var slots := UniqueTimeSlots(dayBs).value;
    assert Label(b) in slots;
    var i :| 0 <= i < |slots| && slots[i] == Label(b);
    assert forall j :: 0 <= j < |slots| && b in Row(dayBs, slots[j]) ==> slots[j] == slots[i];
  }

  // ---------------------------------------------------------------------
  // A row that loses its booking as written
  // ---------------------------------------------------------------------

  /** A booking whose start text already reads `9 - 10am` (kept by `formatTime`) and whose end reads `11am`. */
  function DashedStart(): Booking {
    Booking("2", "Review", "Ops", Confirmed, YMD(2024, 3, 5),
            Timestamp("9 - 10am", None), Timestamp("11am", None),
            None, None, "Room B", "Main", false)
  }

  lemma DashedStartLabel()
    ensures FormatTime(DashedStart().startTime) == "9 - 10am"
    ensures FormatTime(DashedStart().endTime) == "11am"
    ensures Label(DashedStart()) == "9 - 10am - 11am"
  {
    var start: string := "9 - 10am";
    var end: string := "11am";
    assert Lower(start[6]) == 'a' && Lower(start[7]) == 'm';
    assert Lower(end[2]) == 'a' && Lower(end[3]) == 'm';
  }

  lemma DashedStartSplit()
    ensures SplitLabel("9 - 10am - 11am").0 == "9"
  {
    var slot: string := "9 - 10am - 11am";
    assert SepAt(slot, 1) && !SepAt(slot, 0);
    assert FindSep(slot, 0) == Some(1);
  }

  /** Filtering a one-booking list. */
  lemma FilterOne(b: Booking, p: Booking -> bool)
    ensures Filter([b], p) == if p(b) then [b] else []
  {
    assert [b][1..] == [];
  }

  lemma DashedStartSlots()
    ensures UniqueTimeSlots([DashedStart()]) == Some(["9 - 10am - 11am"])
  {
    var slot: string := "9 - 10am - 11am";
    DashedStartLabel();
    assert Labels([DashedStart()]) == [slot];
    assert Dedup([slot]) == [slot];
    assert Sort([slot], Key) == Insert(slot, [], Key) == [slot];
  }

  lemma DashedStartRows()
    ensures RowAsWritten([DashedStart()], "9 - 10am - 11am") == []
    ensures Row([DashedStart()], "9 - 10am - 11am") == [DashedStart()]
  {
    var b := DashedStart();
    var slot: string := "9 - 10am - 11am";
    DashedStartLabel();
    DashedStartSplit();
    var (start, end) := SplitLabel(slot);
    FilterOne(b, (b: Booking) => FormatTime(b.startTime) == start && Some(FormatTime(b.endTime)) == end);
    FilterOne(b, (b: Booking) => Label(b) == slot);
  }

  /**
   As written, the day holding only that booking shows one row,
   `9 - 10am - 11am`, and lists no booking under it; compared by whole
   label, the row lists the booking.
   */
  lemma SplitDropsBooking()
    ensures UniqueTimeSlots([DashedStart()]) == Some(["9 - 10am - 11am"])
    ensures RowAsWritten([DashedStart()], "9 - 10am - 11am") == []
    ensures Row([DashedStart()], "9 - 10am - 11am") == [DashedStart()]
  {
    DashedStartSlots();
    DashedStartRows();
  }

  /** The key of a label `${start} - ${end}` whose start is the 12-hour label of `h` o'clock. */
  lemma HourLabelKey(h: nat, end: string)
    requires h < 24
    ensures Key(Clock12(h, "00") + " - " + end) == h * 60
    ensures SlotKey(Clock12(h, "00") + " - " + end).Some?
  {
    var minute: string := "00";
    assert DigitsValue(minute) == 0 by {
      assert minute[..1] == "0";
    }
    Clock12NoDash(h, minute);
    StartPartOfLabel(Clock12(h, minute), end);
    SlotKeyOfClock(h, minute, 0, Clock12(h, minute) + " - " + end);
  }

  lemma NineSlot()
    ensures Clock12(9, "00") + " - " + "9:30 AM" == "9:00 AM - 9:30 AM"
  {
    assert NatToString(9) == "9";
  }

  lemma TenHour()
    ensures NatToString(10) == "10"
  {
    assert NatToString(1) == [DigitChar(1)] == "1";
    assert DigitChar(0) == '0';
  }

  lemma TenSlot()
    ensures Clock12(10, "00") + " - " + "10:30 AM" == "10:00 AM - 10:30 AM"
  {
    TenHour();
    assert Clock12(10, "00") == "10" + ":" + "00" + " " + "AM";
  }

  /** Two labels out of order by `key` are swapped. */
  lemma SortPair(x: string, y: string, key: string -> int)
    requires key(y) < key(x)
    ensures Sort([x, y], key) == [y, x]
  {
    assert [x, y][1..] == [y] && [y][1..] == [];
    assert Sort([y], key) == [y] by {
      assert Sort([], key) == [];
      assert Insert(y, [], key) == [y];
    }
    assert Insert(x, [y], key) == [y, x] by {
      assert Insert(x, [], key) == [x];
    }
  }

  /** Two labels whose start clocks are out of order are swapped. */
  lemma SortTwo(x: string, y: string)
    requires SlotKey(x).Some? && SlotKey(y).Some? && Key(y) < Key(x)
    ensures SortSlots([x, y]) == Some([y, x])
  {
    var xs := [x, y];
    assert !exists i :: 0 <= i < |xs| && SlotKey(xs[i]).None? by {
      assert forall i :: 0 <= i < |xs| ==> xs[i] == x || xs[i] == y;
    }
    SortPair(x, y, Key);
  }

  /** `10:00 AM - 10:30 AM` and `9:00 AM - 9:30 AM` sort with nine o'clock first. */
  lemma NineBeforeTen()
    ensures SortSlots(["10:00 AM - 10:30 AM", "9:00 AM - 9:30 AM"]) == Some(["9:00 AM - 9:30 AM", "10:00 AM - 10:30 AM"])
  {
    var nine := Clock12(9, "00") + " - " + "9:30 AM";
    var ten := Clock12(10, "00") + " - " + "10:30 AM";
    HourLabelKey(9, "9:30 AM");
    HourLabelKey(10, "10:30 AM");
    SortTwo(ten, nine);
    NineSlot();
    TenSlot();
  }
}

=== FILE: grouping.dfy ===
/**
 `groupBookingsByDate`: the month view's bucket of bookings per date, and
 the day view's filter of the same list by one date.
 */
module Grouping {
  import opened CivilDates
  import opened Bookings

  /** The bookings of `bs` dated `d`, in input order (the day view's `filter`). */
  function OnDate(bs: seq<Booking>, d: Date): (r: seq<Booking>)
    ensures |r| <= |bs|
    ensures forall b :: b in r <==> b in bs && b.date == d
  {
    if bs == [] then []
    else
      var init := OnDate(bs[..|bs| - 1], d);
      var b := bs[|bs| - 1];
      assert bs == bs[..|bs| - 1] + [b];
      if b.date == d then init + [b] else init
  }

  /** The distinct dates of `bs`. */
  function Dates(bs: seq<Booking>): set<Date> {
    set b | b in bs :: b.date
  }

  /** Filtering a list extended by one booking. */
  lemma OnDateSnoc(init: seq<Booking>, b: Booking, d: Date)
    ensures OnDate(init + [b], d) == if b.date == d then OnDate(init, d) + [b] else OnDate(init, d)
  {
    assert (init + [b])[..|init + [b]| - 1] == init;
  }

  lemma DatesSnoc(init: seq<Booking>, b: Booking)
    ensures Dates(init + [b]) == Dates(init) + {b.date}
  {
    assert forall x :: x in init + [b] <==> x in init || x == b;
  }

  /**
   `groupBookingsByDate`: walk the list in order, creating a date's bucket
   on first sight and appending each booking to its date's bucket.
   */
  function GroupByDate(bs: seq<Booking>): (g: map<Date, seq<Booking>>)
    ensures bs == [] ==> g == map[]
  {
    if bs == [] then map[]
    else
      var g := GroupByDate(bs[..|bs| - 1]);
      var b := bs[|bs| - 1];
      if b.date in g then g[b.date := g[b.date] + [b]] else g[b.date := [b]]
  }

  /**
   The keys of the grouping are exactly the dates that occur, and each
   bucket is the input filtered by its date, in input order (so never
   empty).
   */
  lemma {:induction false} GroupByDateBuckets(bs: seq<Booking>)
    ensures GroupByDate(bs).Keys == Dates(bs)
    ensures forall d :: d in GroupByDate(bs) ==> GroupByDate(bs)[d] == OnDate(bs, d) && GroupByDate(bs)[d] != []
  {
    if bs != [] {
      var init := bs[..|bs| - 1];
      var b := bs[|bs| - 1];
      GroupByDateBuckets(init);
      assert bs == init + [b];
      GroupByDateSnoc(init, b);
      DatesSnoc(init, b);
      forall d | d in GroupByDate(bs)
        ensures GroupByDate(bs)[d] == OnDate(bs, d) && GroupByDate(bs)[d] != []
      {
        BucketStep(init, b, d);
      }
    }
  }

  /** Grouping a list extended by one booking. */
  lemma GroupByDateSnoc(init: seq<Booking>, b: Booking)
    ensures GroupByDate(init + [b]) ==
              var g := GroupByDate(init);
              if b.date in g then g[b.date := g[b.date] + [b]] else g[b.date := [b]]
  {
    assert (init + [b])[..|init + [b]| - 1] == init;
  }

  /** One bucket after one more booking, from the buckets before it. */
  lemma BucketStep(init: seq<Booking>, b: Booking, d: Date)
    requires GroupByDate(init).Keys == Dates(init)
    requires d in GroupByDate(init) ==> GroupByDate(init)[d] == OnDate(init, d) && GroupByDate(init)[d] != []
    requires d in GroupByDate(init + [b])
    ensures GroupByDate(init + [b])[d] == OnDate(init + [b], d) && GroupByDate(init + [b])[d] != []
  {
    var g := GroupByDate(init);
    GroupByDateSnoc(init, b);
    OnDateSnoc(init, b, d);
    if d != b.date {
      assert d in g;
    } else if b.date !in g {
      NoneOnDate(init, d);
    }
  }

  /** A date that does not occur has an empty filter. */
  lemma {:induction false} NoneOnDate(bs: seq<Booking>, d: Date)
    requires d !in Dates(bs)
    ensures OnDate(bs, d) == []
  {
    if bs != [] {
      var init := bs[..|bs| - 1];
      assert bs == init + [bs[|bs| - 1]];
      DatesSnoc(init, bs[|bs| - 1]);
      NoneOnDate(init, d);
    }
  }

  /** `bookingsByDate[key] || []`. */
  function Bucket(g: map<Date, seq<Booking>>, d: Date): seq<Booking> {
    if d in g then g[d] else []
  }

  /**
   The month cell of a date and the day view of that date see the same
   bookings in the same order: the bucket is the day view's filter.
   */
  lemma BucketIsDayFilter(bs: seq<Booking>, d: Date)
    ensures Bucket(GroupByDate(bs), d) == OnDate(bs, d)
  {
    GroupByDateBuckets(bs);
    if d !in Dates(bs) {
      NoneOnDate(bs, d);
    }
  }

  /**
   Each booking is counted in its own date's bucket exactly as often as it
   occurs in the input, and in no other bucket.
   */
  lemma {:induction false} OnDateCount(bs: seq<Booking>, d: Date, b: Booking)
    ensures multiset(OnDate(bs, d))[b] == if b.date == d then multiset(bs)[b] else 0
  {
    if bs != [] {
      var init := bs[..|bs| - 1];
      var last := bs[|bs| - 1];
      assert bs == init + [last];
      OnDateCount(init, d, b);
    }
  }

  /** The total size of all buckets. */
  ghost function SumSizes(g: map<Date, seq<Booking>>): nat
    decreases |g.Keys|
  {
    if g == map[] then 0
    else
      var k :| k in g;
      |g[k]| + SumSizes(g - {k})
  }

  /** `SumSizes` does not depend on the order the keys are visited in. */
  lemma {:induction false} SumSizesRemove(g: map<Date, seq<Booking>>, k: Date)
    requires k in g
    ensures SumSizes(g) == |g[k]| + SumSizes(g - {k})
    decreases |g.Keys|
  {
    var k' :| k' in g && SumSizes(g) == |g[k']| + SumSizes(g - {k'});
    if k' != k {
      RemoveShrinks(g, k');
      RemoveShrinks(g, k);
      SumSizesRemove(g - {k'}, k);
      SumSizesRemove(g - {k}, k');
      RemoveCommutes(g, k, k');
    }
  }

  lemma RemoveShrinks(g: map<Date, seq<Booking>>, k: Date)
    requires k in g
    ensures |(g - {k}).Keys| < |g.Keys|
  {
    assert g.Keys == (g - {k}).Keys + {k};
  }

  lemma RemoveCommutes(g: map<Date, seq<Booking>>, a: Date, b: Date)
    requires a != b && a in g && b in g
    ensures a in g - {b} && b in g - {a}
    ensures (g - {b})[a] == g[a] && (g - {a})[b] == g[b]
    ensures g - {b} - {a} == g - {a} - {b}
  {
  }

  /** Grouping is a partition: the bucket sizes add up to the input length. */
  lemma {:induction false} GroupSizes(bs: seq<Booking>)
    ensures SumSizes(GroupByDate(bs)) == |bs|
  {
    if bs != [] {
      var init := bs[..|bs| - 1];
      var b := bs[|bs| - 1];
      var g := GroupByDate(init);
      var r := GroupByDate(bs);
      GroupSizes(init);
      SumSizesRemove(r, b.date);
      if b.date in g {
        SumSizesRemove(g, b.date);
        assert r - {b.date} == g - {b.date};
      } else {
        assert r - {b.date} == g;
      }
    }
  }
}

=== FILE: month_grid.dfy ===
/**
 The month view's grid (`generateDays`): 42 cells, seven to a row, that
 show the tail of the previous month, every day of the displayed month
 with its booking count and first three bookings, and the head of the
 next month.
 */
module MonthGrid {
  import opened CivilDates
  import opened Bookings
  import opened Grouping

  /** One cell of the grid, with the day-of-month it shows. */
  datatype Cell =
    | Leading(day: int)
    | Current(day: int, count: nat, preview: seq<Booking>)
    | Trailing(day: int)

  /** The number of cells: six rows of seven. */
  const TotalCells := 42

  /** `daysInMonth`: `new Date(year, monthIndex + 1, 0).getDate()`, the Gregorian length of the month. */
  function DaysShown(ym: Month): (n: int)
    ensures n == Length(ym)
  {
    JsDateDayZero(ym);
    JsDate(ym.year, ym.month, 0).day
  }

  /** `firstDayOfMonth`: `new Date(year, monthIndex, 1).getDay()`, the weekday of the 1st. */
  function FirstColumn(ym: Month): (w: int)
    ensures w == Weekday(FirstDay(ym))
  {
    JsDateInRange(ym, 1);
    Weekday(JsDate(ym.year, ym.month - 1, 1))
  }

  function Reverse(s: seq<int>): (r: seq<int>)
    ensures |r| == |s| && forall k :: 0 <= k < |s| ==> r[k] == s[|s| - 1 - k]
  {
    seq(|s|, k requires 0 <= k < |s| => s[|s| - 1 - k])
  }

  /** The loop's `new Date(year, monthIndex, 0 - i).getDate()` for `i` from 0. */
  function PreviousDays(ym: Month, n: nat): (r: seq<int>)
    ensures |r| == n
  {
    seq(n, i requires 0 <= i < n => JsDate(ym.year, ym.month - 1, -i).day)
  }

  /** The first seven cells after reversal, for a first column of `n`. */
  function LeadingCells(ym: Month, n: nat): (r: seq<Cell>)
    ensures |r| == n
  {
    var days := Reverse(PreviousDays(ym, n));
    seq(n, k requires 0 <= k < n => Leading(days[k]))
  }

  /** `.slice(0, 3)`: the first three, or all when there are fewer. */
  function FirstThree(s: seq<Booking>): (r: seq<Booking>)
    ensures |r| == (if |s| <= 3 then |s| else 3) && r == s[..|r|]
  {
    if |s| <= 3 then s else s[..3]
  }

  /** A displayed day's cell: `bookingsByDate[fullDate] || []`, its length and its first three. */
  function DayCell(ym: Month, day: int, g: map<Date, seq<Booking>>): Cell
    requires 1 <= day <= Length(ym)
  {
    var bucket := Bucket(g, YMD(ym.year, ym.month, day));
    Current(day, |bucket|, FirstThree(bucket))
  }

  function CurrentCells(ym: Month, g: map<Date, seq<Booking>>): (r: seq<Cell>)
    ensures |r| == Length(ym)
  {
    seq(Length(ym), k requires 0 <= k < Length(ym) => DayCell(ym, k + 1, g))
  }

  function TrailingCells(n: nat): (r: seq<Cell>)
    ensures |r| == n
  {
    seq(n, k requires 0 <= k < n => Trailing(k + 1))
  }

  /** `generateDays()` for the month `ym` and the grouping `g`. */
  function Grid(ym: Month, g: map<Date, seq<Booking>>): (cells: seq<Cell>)
    ensures |cells| == TotalCells
  {
    var lead := FirstColumn(ym);
    var current := CurrentCells(ym, g);
    var days := LeadingCells(ym, lead) + current;
    days + TrailingCells(TotalCells - |days|)
  }

  /** The grid is its three blocks in order. */
  lemma GridParts(ym: Month, g: map<Date, seq<Booking>>)
    ensures FirstColumn(ym) + Length(ym) <= TotalCells
    ensures Grid(ym, g) == LeadingCells(ym, FirstColumn(ym)) + CurrentCells(ym, g)
                           + TrailingCells(TotalCells - FirstColumn(ym) - Length(ym))
  {
  }

  /** Two days of one month lie as many day numbers apart as their days of the month. */
  lemma SameMonthDayNumber(a: Date, b: Date)
    requires a.year == b.year && a.month == b.month
    ensures DayNumber(a) - DayNumber(b) == a.day - b.day
  {
  }

  /** The `i`-th last day of the previous month lies `i + 1` days before the first. */
  lemma PreviousMonthTailNumber(ym: Month, i: int)
    requires 0 <= i < 28
    ensures DayNumber(YMD(Pred(ym).year, Pred(ym).month, Length(Pred(ym)) - i)) == DayNumber(FirstDay(ym)) - i - 1
  {
    var p := Pred(ym);
    LastDayNumber(p);
    SuccPredInverse(ym);
    SameMonthDayNumber(YMD(p.year, p.month, Length(p) - i), LastDay(p));
  }

  /** Day `-i` of the displayed month is the `i`-th last day of the previous month. */
  lemma PreviousMonthTail(ym: Month, i: int)
    requires 0 <= i < 28
    ensures JsDate(ym.year, ym.month - 1, -i) == YMD(Pred(ym).year, Pred(ym).month, Length(Pred(ym)) - i)
  {
    PreviousMonthTailNumber(ym, i);
    JsDateOffset(ym, -i);
    DayNumberInjective(JsDate(ym.year, ym.month - 1, -i), YMD(Pred(ym).year, Pred(ym).month, Length(Pred(ym)) - i));
  }

  /** The `k`-th of `n` leading cells shows the `(n - k)`-th last day of the previous month. */
  lemma LeadingCellDay(ym: Month, n: nat, k: nat)
    requires k < n < 28
    ensures LeadingCells(ym, n)[k] == Leading(Length(Pred(ym)) - n + 1 + k)
  {
    var i := n - 1 - k;
    assert LeadingCells(ym, n)[k] == Leading(PreviousDays(ym, n)[i]);
    assert PreviousDays(ym, n)[i] == JsDate(ym.year, ym.month - 1, -i).day;
    PreviousMonthTail(ym, i);
  }

  /**
   The leading cells are the last days of the previous month in ascending
   order, ending with its last day; there are as many as the weekday of
   the displayed month's first.
   */
  lemma LeadingArePreviousMonth(ym: Month, g: map<Date, seq<Booking>>)
    ensures forall k :: 0 <= k < Weekday(FirstDay(ym)) ==>
              Grid(ym, g)[k] == Leading(Length(Pred(ym)) - Weekday(FirstDay(ym)) + 1 + k)
  {
    var n := FirstColumn(ym);
    var cells := Grid(ym, g);
    GridParts(ym, g);
    forall k | 0 <= k < n
      ensures cells[k] == Leading(Length(Pred(ym)) - n + 1 + k)
    {
      assert cells[k] == LeadingCells(ym, n)[k];
      LeadingCellDay(ym, n, k);
    }
  }

  /**
   The cells after them are the days 1 to the month's length, day `k` in
   the column of its weekday, each with the number of bookings on that
   date and the first three of them.
   */
  lemma CurrentAreMonthDays(ym: Month, g: map<Date, seq<Booking>>, k: int)
    requires 1 <= k <= Length(ym)
    ensures Weekday(FirstDay(ym)) + k - 1 < TotalCells
    ensures (Weekday(FirstDay(ym)) + k - 1) % 7 == Weekday(YMD(ym.year, ym.month, k))
    ensures Grid(ym, g)[Weekday(FirstDay(ym)) + k - 1] == DayCell(ym, k, g)
  {
    WeekdayInMonth(ym, k);
    var n := FirstColumn(ym);
    GridParts(ym, g);
    assert Grid(ym, g)[n + k - 1] == CurrentCells(ym, g)[k - 1];
  }

  /** The remaining cells are the next month's first days, numbered from 1; there are at least five. */
  lemma TrailingAreNextMonth(ym: Month, g: map<Date, seq<Booking>>)
    ensures var start := Weekday(FirstDay(ym)) + Length(ym);
            && TotalCells - start >= 5
            && forall j :: start <= j < TotalCells ==> Grid(ym, g)[j] == Trailing(j - start + 1)
  {
  }

  /**
   Over the grouping of a booking list, a day's cell counts exactly the
   bookings the day view of that date lists, and previews the first three
   of them in the same order.
   */
  lemma CellMatchesDayView(ym: Month, bs: seq<Booking>, k: int)
    requires 1 <= k <= Length(ym)
    ensures Grid(ym, GroupByDate(bs))[Weekday(FirstDay(ym)) + k - 1]
            == Current(k, |OnDate(bs, YMD(ym.year, ym.month, k))|, FirstThree(OnDate(bs, YMD(ym.year, ym.month, k))))
  {
    CurrentAreMonthDays(ym, GroupByDate(bs), k);
    BucketIsDayFilter(bs, YMD(ym.year, ym.month, k));
  }
}

=== FILE: navigation.dfy ===
/**
 The calendar's navigation state: the date whose month is displayed, the
 date selected for the day view, and which view is showing; and the
 events that change them (arrows, month and year pickers, clicking a
 day, the day view's arrows and its back button).
 */
module Navigation {
  import opened Options
  import opened CivilDates

  datatype View = MonthView | DayView

  /**
   `currentDate`, `selectedDate` (`None` for `null`) and `view`.  Only the
   year and month of `current` are ever read.
   */
  datatype State = State(current: Date, selected: Option<Date>, view: View)

  datatype Event =
    | PreviousMonth
    | NextMonth
    | GoToToday(today: Date)
    | PickMonth(name: string)
    | PickYear(year: int)
    | SelectDay(day: int)
    | PreviousDay
    | NextDay
    | BackToCalendar

  /** `monthNames`. */
  function MonthNames(): (r: seq<string>)
    ensures |r| == 12
  {
    ["January", "February", "March", "April", "May", "June",
     "July", "August", "September", "October", "November", "December"]
  }

  /** `indexOf`: the first index holding `x`, or -1. */
  function IndexOf(xs: seq<string>, x: string): (i: int)
    ensures -1 <= i < |xs|
    ensures i >= 0 ==> xs[i] == x && forall j :: 0 <= j < i ==> xs[j] != x
    ensures i == -1 ==> x !in xs
  {
    if xs == [] then -1
    else if xs[0] == x then 0
    else
      var i := IndexOf(xs[1..], x);
      if i == -1 then -1 else i + 1
  }

  /** The page's start: today's month, nothing selected, the month view. */
  function Initial(today: Date): State {
    State(today, None, MonthView)
  }

  /**
   One event.  `None` where the source dereferences a `null` selected
   date (`selectedDate.setDate`).  Month events change only the displayed
   date, day events only the selection and the view.
   */
  function Step(s: State, e: Event): (r: Option<State>)
    ensures r.None? <==> (e.PreviousDay? || e.NextDay?) && s.selected.None?
    ensures r.Some? ==> (r.value.view == DayView <==> e.SelectDay? || (s.view == DayView && !e.BackToCalendar?))
    ensures r.Some? && !(e.SelectDay? || e.PreviousDay? || e.NextDay?) ==> r.value.selected == s.selected
    ensures r.Some? && (e.SelectDay? || e.PreviousDay? || e.NextDay? || e.BackToCalendar?) ==> r.value.current == s.current
  {
    var y := s.current.year;
    var m0 := s.current.month - 1;
    match e
    case PreviousMonth => Some(s.(current := JsDate(y, m0 - 1, 1)))
    case NextMonth => Some(s.(current := JsDate(y, m0 + 1, 1)))
    case GoToToday(today) => Some(s.(current := today))
    case PickMonth(name) => Some(s.(current := JsDate(y, IndexOf(MonthNames(), name), 1)))
    case PickYear(year) => Some(s.(current := JsDate(year, m0, 1)))
    case SelectDay(day) => Some(s.(selected := Some(JsDate(y, m0, day)), view := DayView))
    case PreviousDay =>
      if s.selected.None? then None
      else Some(s.(selected := Some(AddDays(s.selected.value, -1))))
    case NextDay =>
      if s.selected.None? then None
      else Some(s.(selected := Some(AddDays(s.selected.value, 1))))
    case BackToCalendar => Some(s.(view := MonthView))
  }

  /** The day view is only ever shown with a selected date. */
  predicate Inv(s: State) {
    s.view == DayView ==> s.selected.Some?
  }

  /**
   The page starts in a state satisfying the invariant, and every event
   from such a state succeeds and keeps it; a `null` selected date is only
   ever dereferenced outside the day view.
   */
  lemma InvariantHolds(today: Date, s: State, e: Event)
    ensures Inv(Initial(today))
    ensures Inv(s) && (s.view == DayView || !(e.PreviousDay? || e.NextDay?)) ==>
              Step(s, e).Some? && Inv(Step(s, e).value)
  {
  }

  /** The arrows show the previous and the next month, from its first. */
  lemma MonthArrows(s: State)
    ensures Step(s, PreviousMonth).value.current == FirstDay(Pred(MonthOf(s.current)))
    ensures Step(s, NextMonth).value.current == FirstDay(Succ(MonthOf(s.current)))
  {
    var ym := MonthOf(s.current);
    JsDateInRange(Pred(ym), 1);
    JsDateInRange(Succ(ym), 1);
    assert NormalMonth(ym.year, ym.month - 2) == Pred(ym);
    assert NormalMonth(ym.year, ym.month) == Succ(ym);
  }

  /** The two arrows undo each other on the displayed month. */
  lemma MonthArrowsInverse(s: State)
    ensures MonthOf(Step(Step(s, PreviousMonth).value, NextMonth).value.current) == MonthOf(s.current)
    ensures MonthOf(Step(Step(s, NextMonth).value, PreviousMonth).value.current) == MonthOf(s.current)
  {
    MonthArrows(s);
    MonthArrows(Step(s, PreviousMonth).value);
    MonthArrows(Step(s, NextMonth).value);
    SuccPredInverse(MonthOf(s.current));
  }

  /**
   Picking a month name shows that month of the displayed year; a name
   that is not a month's (`indexOf` gives -1) shows December of the year
   before.
   */
  lemma PickMonthShows(s: State, name: string)
    ensures name in MonthNames() ==>
              Step(s, PickMonth(name)).value.current == YMD(s.current.year, IndexOf(MonthNames(), name) + 1, 1)
    ensures name !in MonthNames() ==>
              Step(s, PickMonth(name)).value.current == YMD(s.current.year - 1, 12, 1)
  {
    var i := IndexOf(MonthNames(), name);
    if i >= 0 {
      JsDateInRange(YearMonth(s.current.year, i + 1), 1);
    } else {
      var dec := YearMonth(s.current.year - 1, 12);
      assert NormalMonth(s.current.year, -1) == dec;
      JsDateInRange(dec, 1);
    }
  }

  /** The month names are pairwise different. */
  lemma MonthNamesDistinct(i: int, j: int)
    requires 0 <= i < j < 12
    ensures MonthNames()[i] != MonthNames()[j]
  {
    var names := MonthNames();
    assert |names[i]| != |names[j]| || names[i][0] != names[j][0] || names[i][2] != names[j][2];
  }

  /** Each month name picks its own month. */
  lemma PickMonthByName(s: State, k: int)
    requires 0 <= k < 12
    ensures Step(s, PickMonth(MonthNames()[k])).value.current == YMD(s.current.year, k + 1, 1)
  {
    var i := IndexOf(MonthNames(), MonthNames()[k]);
    PickMonthShows(s, MonthNames()[k]);
    if i < k {
      MonthNamesDistinct(i, k);
    }
  }

  /** `Array.from({ length: 10 }, (_, i) => currentYear - 5 + i)`. */
  function YearOptions(s: State): (r: seq<int>)
    ensures |r| == 10
  {
    seq(10, i requires 0 <= i < 10 => s.current.year - 5 + i)
  }

  /**
   The year picker offers ten consecutive years with the displayed one
   sixth, and picking one keeps the displayed month.
   */
  lemma PickYearShows(s: State, k: int)
    requires 0 <= k < 10
    ensures YearOptions(s)[5] == s.current.year
    ensures forall i :: 0 <= i < 9 ==> YearOptions(s)[i + 1] == YearOptions(s)[i] + 1
    ensures Step(s, PickYear(YearOptions(s)[k])).value.current == YMD(s.current.year - 5 + k, s.current.month, 1)
  {
    JsDateInRange(YearMonth(s.current.year - 5 + k, s.current.month), 1);
  }

  /** Clicking day `day` of the displayed month selects that date and opens the day view. */
  lemma SelectDayShows(s: State, day: int)
    requires 1 <= day <= Length(MonthOf(s.current))
    ensures Step(s, SelectDay(day)).value.selected == Some(YMD(s.current.year, s.current.month, day))
    ensures Step(s, SelectDay(day)).value.view == DayView
  {
    JsDateInRange(MonthOf(s.current), day);
  }

  /** A day forward then back, or back then forward, returns to the same date. */
  lemma OneDayInverse(d: Date)
    ensures AddDays(AddDays(d, 1), -1) == d && AddDays(AddDays(d, -1), 1) == d
  {
    AddDaysDayNumber(d, -1);
    AddDaysDayNumber(d, 1);
    AddDaysDayNumber(AddDays(d, 1), -1);
    AddDaysDayNumber(AddDays(d, -1), 1);
    DayNumberInjective(AddDays(AddDays(d, 1), -1), d);
    DayNumberInjective(AddDays(AddDays(d, -1), 1), d);
  }

  /**
   The day view's arrows move the selected date one day back or forward,
   across month and year ends, and undo each other.
   */
  lemma DayArrows(s: State)
    requires s.selected.Some?
    ensures DayNumber(Step(s, PreviousDay).value.selected.value) == DayNumber(s.selected.value) - 1
    ensures DayNumber(Step(s, NextDay).value.selected.value) == DayNumber(s.selected.value) + 1
    ensures Step(Step(s, NextDay).value, PreviousDay).value == s
    ensures Step(Step(s, PreviousDay).value, NextDay).value == s
  {
    var d := s.selected.value;
    AddDaysDayNumber(d, -1);
    AddDaysDayNumber(d, 1);
    OneDayInverse(d);
  }
}

=== FILE: options.dfy ===
/** An optional value: the source's `undefined`/empty fields and failed matches. */
module Options {

  datatype Option<+T> = None | Some(value: T) {

    /** The wrapped value, or `default` when there is none. */
    function GetOr(default: T): T {
      match this
      case Some(v) => v
      case None => default
    }
  }
}

=== FILE: recurrence.dfy ===
/**
 The recurrence expander behind the month view: hidden statuses are
 dropped, one-off bookings pass through, and each recurring series is
 expanded into one occurrence per cadence step inside the displayed month.
 */
module Recurrence {
  import opened Options
  import opened CivilDates
  import opened Bookings

  /** One advance of the expansion cursor for cadence `c`. */
  function Step(d: Date, c: Cadence): (r: Date)
    ensures Before(d, r)
  {
    match c
    case Daily => AddDays(d, 1)
    case Weekly => AddDays(d, 7)
    case Monthly => AddOneMonth(d)
  }

  /** Termination measure of a cursor loop bounded (inclusively) by `bound`. */
  function Remaining(cursor: Date, bound: Date): nat {
    if OnOrBefore(cursor, bound) then Rank(bound) - Rank(cursor) + 1 else 0
  }

  /** The number of calendar days from `a` through `b`, both inclusive (0 when `b` is before `a`). */
  function Span(a: Date, b: Date): nat {
    if OnOrBefore(a, b) then
      RankIsTimeOrder(a, b);
      DayNumber(b) - DayNumber(a) + 1
    else 0
  }

  /** The series date `k` steps after `d`. */
  function Iterate(d: Date, c: Cadence, k: nat): Date
    decreases k
  {
    if k == 0 then d else Iterate(Step(d, c), c, k - 1)
  }

  /** The series from `d` after its first date is the series from the next step. */
  lemma IterateShift(d: Date, c: Cadence)
    ensures forall k: nat :: k > 0 ==> Iterate(d, c, k) == Iterate(Step(d, c), c, k - 1)
  {
  }

  /** Series dates are one cadence step apart. */
  lemma {:induction false} IterateStep(d: Date, c: Cadence, k: nat)
    ensures Iterate(d, c, k + 1) == Step(Iterate(d, c, k), c)
    decreases k
  {
    if k > 0 {
      IterateStep(Step(d, c), c, k - 1);
    }
  }

  /** Series dates strictly increase. */
  lemma {:induction false} IterateIncreasing(d: Date, c: Cadence, j: nat, k: nat)
    requires j < k
    ensures Before(Iterate(d, c, j), Iterate(d, c, k))
    decreases k
  {
    IterateStep(d, c, k - 1);
    if j < k - 1 {
      IterateIncreasing(d, c, j, k - 1);
    }
  }

  /** A Daily series advances one day per step, a Weekly one seven. */
  lemma {:induction false} IterateProgression(d: Date, c: Cadence, k: nat)
    requires c != Monthly
    ensures DayNumber(Iterate(d, c, k)) == DayNumber(d) + (if c == Daily then k else 7 * k)
    decreases k
  {
    if k > 0 {
      var step := if c == Daily then 1 else 7;
      var next := Step(d, c);
      AddDaysDayNumber(d, step);
      assert DayNumber(next) == DayNumber(d) + step;
      IterateProgression(next, c, k - 1);
      assert Iterate(d, c, k) == Iterate(next, c, k - 1);
    }
  }

  /**
   A Monthly series anchored on day 1 to 28 stays on that day of the
   month, one month further at each step.
   */
  lemma {:induction false} MonthlyKeepsDay(d: Date, k: nat)
    requires d.day <= 28
    ensures var r := Iterate(d, Monthly, k);
            r.day == d.day && r.year * 12 + r.month == d.year * 12 + d.month + k
    decreases k
  {
    if k > 0 {
      var next := Step(d, Monthly);
      assert next.day == d.day && next.year * 12 + next.month == d.year * 12 + d.month + 1;
      MonthlyKeepsDay(next, k - 1);
    }
  }

  /**
   An anchor on a later day rolls over where the next month is shorter and
   stays on the day it rolled to: January 31st is followed by March 2nd,
   then April 2nd.
   */
  lemma MonthlyRollover()
    ensures Iterate(YMD(2024, 1, 31), Monthly, 1) == YMD(2024, 3, 2)
    ensures Iterate(YMD(2024, 1, 31), Monthly, 2) == YMD(2024, 4, 2)
  {
  }

  /**
   `calculateRecurringDates`: the series from `cursor` for as long as it
   stays on or before `end` (inclusive).
   */
  function RecurringDates(cursor: Date, c: Cadence, end: Date): (r: seq<Date>)
    ensures forall i :: 0 <= i < |r| ==> r[i] == Iterate(cursor, c, i) && OnOrBefore(cursor, r[i]) && OnOrBefore(r[i], end)
    ensures Before(end, Iterate(cursor, c, |r|))
    decreases Remaining(cursor, end)
  {
    if OnOrBefore(cursor, end) then
      var next := Step(cursor, c);
      var rest := RecurringDates(next, c, end);
      IterateShift(cursor, c);
      [cursor] + rest
    else []
  }

  /**
   The occurrence loop of the expander: emit `b` at the cursor while the
   cursor is on or before both the series end and the month's last day.
   */
  function Occurrences(b: Booking, c: Cadence, cursor: Date, end: Date, last: Date): (r: seq<Booking>)
    ensures forall i :: 0 <= i < |r| ==>
              && r[i] == OccurrenceOn(b, Iterate(cursor, c, i))
              && OnOrBefore(r[i].date, end) && OnOrBefore(r[i].date, last)
    ensures Before(end, Iterate(cursor, c, |r|)) || Before(last, Iterate(cursor, c, |r|))
    decreases Remaining(cursor, Earlier(end, last))
  {
    if OnOrBefore(cursor, end) && OnOrBefore(cursor, last) then
      var next := Step(cursor, c);
      var rest := Occurrences(b, c, next, end, last);
      IterateShift(cursor, c);
      [OccurrenceOn(b, cursor)] + rest
    else []
  }

  /** The inclusive end of a series' expansion in `view`: its own end date, or the month's last day. */
  function SeriesEnd(b: Booking, view: Month): Date {
    b.recurrenceEndDate.GetOr(LastDay(view))
  }

  /** `processedBookings` for a single booking. */
  function ExpandOne(b: Booking, view: Month): (r: seq<Booking>)
    ensures !IsShown(b) ==> r == []
    ensures IsShown(b) && b.recurring.None? ==> r == [b]
    ensures b.recurring.Some? ==>
              forall i :: 0 <= i < |r| ==> r[i] == OccurrenceOn(b, r[i].date) && MonthOf(r[i].date) == view
  {
    if !IsShown(b) then []
    else if b.recurring.None? then [b]
    else
      var first := FirstDay(view);
      var last := LastDay(view);
      var end := if b.recurrenceEndDate.Some? then b.recurrenceEndDate.value else last;
      if Before(last, b.date) || Before(end, first) then []
      else
        var r := Occurrences(b, b.recurring.value, Later(b.date, first), end, last);
        assert forall i :: 0 <= i < |r| ==> MonthOf(r[i].date) == view by {
          forall i | 0 <= i < |r| ensures MonthOf(r[i].date) == view {
            if i > 0 {
              IterateIncreasing(Later(b.date, first), b.recurring.value, 0, i);
            }
            InMonthIff(r[i].date, view);
          }
        }
        r
  }

  /** The constructor calls the expander uses for the displayed month's bounds. */
  lemma MonthBounds(view: Month)
    ensures JsDate(view.year, view.month - 1, 1) == FirstDay(view)
    ensures JsDate(view.year, view.month, 0) == LastDay(view)
  {
    JsDateInRange(view, 1);
    JsDateDayZero(view);
  }

  /** `processedBookings`: every booking's contribution, in input order; pending and declined ones never show. */
  function Expand(bs: seq<Booking>, view: Month): (r: seq<Booking>)
    ensures forall o :: o in r ==> IsShown(o)
  {
    if bs == [] then [] else ExpandOne(bs[0], view) + Expand(bs[1..], view)
  }

  // ---------------------------------------------------------------------
  // Properties of the expander
  // ---------------------------------------------------------------------

  /** The expansion loop of `processedBookings` produces the `calculateRecurringDates` sequence. */
  lemma {:induction false} OccurrencesFollowRecurringDates(b: Booking, c: Cadence, cursor: Date, end: Date, last: Date)
    ensures var r := Occurrences(b, c, cursor, end, last);
            var ds := RecurringDates(cursor, c, Earlier(end, last));
            |r| == |ds| && forall i :: 0 <= i < |r| ==> r[i] == OccurrenceOn(b, ds[i])
    decreases Remaining(cursor, Earlier(end, last))
  {
    if OnOrBefore(cursor, end) && OnOrBefore(cursor, last) {
      OccurrencesFollowRecurringDates(b, c, Step(cursor, c), end, last);
      var rest := Occurrences(b, c, Step(cursor, c), end, last);
      var ds := RecurringDates(Step(cursor, c), c, Earlier(end, last));
      assert Occurrences(b, c, cursor, end, last) == [OccurrenceOn(b, cursor)] + rest;
      assert RecurringDates(cursor, c, Earlier(end, last)) == [cursor] + ds;
    }
  }

  /** A Daily or Weekly date sequence has one entry per step that stays on or before `end`. */
  lemma {:induction false} RecurringDatesLength(cursor: Date, c: Cadence, end: Date)
    requires c != Monthly
    ensures c == Daily ==> |RecurringDates(cursor, c, end)| == Span(cursor, end)
    ensures c == Weekly ==> |RecurringDates(cursor, c, end)| == (Span(cursor, end) + 6) / 7
    decreases Remaining(cursor, end)
  {
    if OnOrBefore(cursor, end) {
      var next := Step(cursor, c);
      RecurringDatesLength(next, c, end);
      assert |RecurringDates(cursor, c, end)| == 1 + |RecurringDates(next, c, end)|;
      var m := Span(cursor, end);
      AddDaysDayNumber(cursor, if c == Daily then 1 else 7);
      RankIsTimeOrder(cursor, end);
      RankIsTimeOrder(next, end);
      if c == Daily {
        assert Span(next, end) == m - 1;
      } else {
        assert Span(next, end) == (if m >= 8 then m - 7 else 0);
      }
    }
  }

  /** Inside one month, a Monthly series steps out of the month after its first date. */
  lemma {:induction false} MonthlyStaysOnce(cursor: Date, end: Date, view: Month)
    requires MonthOf(cursor) == view
    requires OnOrBefore(end, LastDay(view))
    ensures |RecurringDates(cursor, Monthly, end)| <= 1
  {
    var r := RecurringDates(cursor, Monthly, end);
    if OnOrBefore(cursor, end) {
      LastDayNumber(view);
      var next := Step(cursor, Monthly);
      assert Before(end, next);
      assert r == [cursor] + RecurringDates(next, Monthly, end);
    }
  }

  /**
   Range clipping of one recurring series in the displayed month.  With
   `start` the later of the anchor and the month's first day and `end` the
   series end (or the month's last day): occurrence `i` is the series date
   `i` steps after `start`, copied from the booking with only `date` and
   `isRecurring` changed; every occurrence lies in `[start, end]` and on or
   before the month's last day, both bounds inclusive; the first is `start`
   whenever there is one; the step after the last one leaves the window; and
   the early return fires when the series misses the month.
   */
  lemma {:induction false} ExpandOneWindow(b: Booking, view: Month)
    requires IsShown(b) && b.recurring.Some?
    ensures var r := ExpandOne(b, view);
            var c := b.recurring.value;
            var start := Later(b.date, FirstDay(view));
            var end := SeriesEnd(b, view);
            && (Before(LastDay(view), b.date) || Before(end, FirstDay(view)) ==> r == [])
            && (|r| > 0 <==> OnOrBefore(start, end) && OnOrBefore(start, LastDay(view)))
            && (|r| > 0 ==> r[0] == OccurrenceOn(b, start))
            && (forall i :: 0 <= i < |r| ==>
                  && r[i] == OccurrenceOn(b, Iterate(start, c, i))
                  && OnOrBefore(start, r[i].date)
                  && OnOrBefore(r[i].date, end)
                  && OnOrBefore(r[i].date, LastDay(view)))
            && (Before(end, Iterate(start, c, |r|)) || Before(LastDay(view), Iterate(start, c, |r|)))
  {
    var r := ExpandOne(b, view);
    var start := Later(b.date, FirstDay(view));
    forall i | 0 < i < |r|
      ensures OnOrBefore(start, r[i].date)
    {
      IterateIncreasing(start, b.recurring.value, 0, i);
    }
  }

  /**
   A shown recurring booking expands to exactly its `calculateRecurringDates`
   sequence from `max(anchor, first of month)` through the earlier of its end
   and the month's last day.  In particular the early return is redundant.
   */
  lemma {:induction false} ExpandOneIsRecurringDates(b: Booking, view: Month)
    requires IsShown(b) && b.recurring.Some?
    ensures var r := ExpandOne(b, view);
            var ds := RecurringDates(Later(b.date, FirstDay(view)), b.recurring.value,
                                     Earlier(SeriesEnd(b, view), LastDay(view)));
            |r| == |ds| && forall i :: 0 <= i < |r| ==> r[i] == OccurrenceOn(b, ds[i])
  {
    MonthBounds(view);
    var start := Later(b.date, FirstDay(view));
    var bound := Earlier(SeriesEnd(b, view), LastDay(view));
    OccurrencesFollowRecurringDates(b, b.recurring.value, start, SeriesEnd(b, view), LastDay(view));
    if Before(LastDay(view), b.date) || Before(SeriesEnd(b, view), FirstDay(view)) {
      assert Before(bound, start);
    }
  }

  /**
   How many occurrences a series contributes to the month: every day of the
   clipped window (Daily), every seventh day of it (Weekly), at most one
   (Monthly).
   */
  lemma {:induction false} ExpandOneCount(b: Booking, view: Month)
    requires IsShown(b) && b.recurring.Some?
    ensures var n := |ExpandOne(b, view)|;
            var window := Span(Later(b.date, FirstDay(view)), Earlier(SeriesEnd(b, view), LastDay(view)));
            && (b.recurring.value == Daily ==> n == window)
            && (b.recurring.value == Weekly ==> n == (window + 6) / 7)
            && (b.recurring.value == Monthly ==> n <= 1)
  {
    ExpandOneIsRecurringDates(b, view);
    var start := Later(b.date, FirstDay(view));
    var bound := Earlier(SeriesEnd(b, view), LastDay(view));
    if b.recurring.value == Monthly {
      if OnOrBefore(start, bound) {
        InMonthIff(start, view);
        MonthlyStaysOnce(start, bound, view);
      }
    } else {
      RecurringDatesLength(start, b.recurring.value, bound);
    }
  }

  /** The expander is the in-order concatenation of each booking's contribution. */
  lemma {:induction false} ExpandAppend(xs: seq<Booking>, ys: seq<Booking>, view: Month)
    ensures Expand(xs + ys, view) == Expand(xs, view) + Expand(ys, view)
  {
    if xs != [] {
      assert (xs + ys)[1..] == xs[1..] + ys;
      ExpandAppend(xs[1..], ys, view);
    } else {
      assert xs + ys == ys;
    }
  }

  /** Booking `i`'s contribution sits between those of the bookings before and after it. */
  lemma ExpandSplit(bs: seq<Booking>, i: int, view: Month)
    requires 0 <= i < |bs|
    ensures Expand(bs, view) == Expand(bs[..i], view) + ExpandOne(bs[i], view) + Expand(bs[i + 1..], view)
  {
    assert bs == bs[..i] + [bs[i]] + bs[i + 1..];
    ExpandAppend(bs[..i] + [bs[i]], bs[i + 1..], view);
    ExpandAppend(bs[..i], [bs[i]], view);
    assert Expand([bs[i]], view) == ExpandOne(bs[i], view) + Expand([], view);
  }

  /** Where an emitted booking may come from. */
  predicate DerivedFrom(o: Booking, b: Booking, view: Month) {
    IsShown(b)
    && if b.recurring.None? then o == b
       else o == OccurrenceOn(b, o.date) && MonthOf(o.date) == view
  }

  /** Every booking one series emits derives from it. */
  lemma ExpandOneDerived(b: Booking, view: Month)
    ensures forall o :: o in ExpandOne(b, view) ==> DerivedFrom(o, b, view)
  {
  }

  /**
   Every emitted booking is a shown input booking, either unchanged (one-off)
   or copied onto a date of the displayed month (recurring).
   */
  lemma {:induction false} ExpandSound(bs: seq<Booking>, view: Month)
    ensures forall o :: o in Expand(bs, view) ==> exists b :: b in bs && DerivedFrom(o, b, view)
  {
    if bs != [] {
      var head := ExpandOne(bs[0], view);
      var tail := Expand(bs[1..], view);
      ExpandSound(bs[1..], view);
      ExpandOneDerived(bs[0], view);
      assert Expand(bs, view) == head + tail;
      forall o | o in Expand(bs, view)
        ensures exists b :: b in bs && DerivedFrom(o, b, view)
      {
        if o in head {
          assert DerivedFrom(o, bs[0], view);
        } else {
          var b :| b in bs[1..] && DerivedFrom(o, b, view);
          assert b in bs;
        }
      }
    }
  }
}

=== FILE: time_format.dfy ===
/**
 The day view's clock text: `formatTime`, which normalises a booking's
 start or end time to a 12-hour label, and the sort key the slot list is
 ordered by, read back from such a label.
 */
module TimeFormat {
  import opened Options
  import opened Bookings

  // ---------------------------------------------------------------------
  // Decimal digits
  // ---------------------------------------------------------------------

  /** `\d`: an ASCII decimal digit. */
  predicate IsDigit(c: char) {
    '0' <= c <= '9'
  }

  predicate AllDigits(s: string) {
    forall i :: 0 <= i < |s| ==> IsDigit(s[i])
  }

  /** `parseInt` of a run of decimal digits. */
  function DigitsValue(s: string): nat
    requires AllDigits(s)
  {
    if s == [] then 0 else DigitsValue(s[..|s| - 1]) * 10 + (s[|s| - 1] as int - '0' as int)
  }

  function DigitChar(n: nat): (c: char)
    requires n < 10
    ensures IsDigit(c) && c as int - '0' as int == n
  {
    ('0' as int + n) as char
  }

  /** `String(n)`: the decimal text of `n`, without leading zeros. */
  function NatToString(n: nat): (s: string)
    ensures 0 < |s| && AllDigits(s)
    ensures DigitsValue(s) == n
    ensures |s| == 1 || s[0] != '0'
  {
    if n < 10 then [DigitChar(n)]
    else
      var s := NatToString(n / 10) + [DigitChar(n % 10)];
      assert s[..|s| - 1] == NatToString(n / 10);
      s
  }

  /** `n.toString().padStart(2, '0')` for a two-digit number. */
  function Pad2(n: nat): (s: string)
    requires n < 100
    ensures |s| == 2 && AllDigits(s) && DigitsValue(s) == n
  {
    if n < 10 then
      var s := ['0', DigitChar(n)];
      assert s[..1] == ['0'] && ['0'][..0] == [];
      assert DigitsValue(['0']) == 0;
      s
    else
      assert |NatToString(n / 10)| == 1;
      NatToString(n)
  }

  // ---------------------------------------------------------------------
  // `formatTime`
  // ---------------------------------------------------------------------

  /** ASCII case folding, as a case-insensitive regular expression applies it. */
  function Lower(c: char): char {
    if 'A' <= c <= 'Z' then (c as int + 32) as char else c
  }

  /** `am` or `pm`, in either case, starts at `i`. */
  predicate AmPmAt(s: string, i: int) {
    0 <= i < |s| - 1 && (Lower(s[i]) == 'a' || Lower(s[i]) == 'p') && Lower(s[i + 1]) == 'm'
  }

  /** `/am|pm/i.test(s)`. */
  predicate HasAmPm(s: string) {
    exists i :: 0 <= i < |s| && AmPmAt(s, i)
  }

  /** What `^(\d{1,2}):(\d{2})(?::(\d{2}))?$` captures: the hour's value and the minute digits. */
  datatype ClockText = ClockText(hour: nat, minute: string)

  /** The shape of the clock pattern with an hour of `n` digits. */
  predicate ClockShape(s: string, n: nat) {
    && (n == 1 || n == 2)
    && (|s| == n + 3 || (|s| == n + 6 && s[n + 3] == ':' && IsDigit(s[n + 4]) && IsDigit(s[n + 5])))
    && AllDigits(s[..n]) && s[n] == ':' && IsDigit(s[n + 1]) && IsDigit(s[n + 2])
  }

  /** Matching `^(\d{1,2}):(\d{2})(?::(\d{2}))?$`. */
  function MatchClock(s: string): (r: Option<ClockText>)
    ensures r.Some? <==> ClockShape(s, 1) || ClockShape(s, 2)
  {
    var n := if 2 <= |s| && s[1] == ':' then 1 else 2;
    if ClockShape(s, n) then Some(ClockText(DigitsValue(s[..n]), s[n + 1..n + 3])) else None
  }

  /** Every rendering `H:MM` or `H:MM:SS` with a one- or two-digit hour matches, capturing `H` and `MM`. */
  lemma MatchClockAccepts(h: string, mm: string, tail: string)
    requires (|h| == 1 || |h| == 2) && AllDigits(h)
    requires |mm| == 2 && AllDigits(mm)
    requires tail == [] || (|tail| == 3 && tail[0] == ':' && IsDigit(tail[1]) && IsDigit(tail[2]))
    ensures MatchClock(h + ":" + mm + tail) == Some(ClockText(DigitsValue(h), mm))
  {
    var s := h + ":" + mm + tail;
    assert s[..|h|] == h;
    assert s[|h| + 1..|h| + 3] == mm;
    assert ClockShape(s, |h|);
  }

  /** Everything that matches is such a rendering. */
  lemma MatchClockOnlyAccepts(s: string)
    requires MatchClock(s).Some?
    ensures var n := if s[1] == ':' then 1 else 2;
            var ct := MatchClock(s).value;
            && s == s[..n] + ":" + ct.minute + s[n + 3..]
            && ct.hour == DigitsValue(s[..n]) && ct.hour < 100
            && |ct.minute| == 2 && AllDigits(ct.minute)
  {
    var n := if s[1] == ':' then 1 else 2;
    assert s == s[..n] + ":" + s[n + 1..n + 3] + s[n + 3..];
    if n == 2 {
      assert s[..n][..1] == s[..1];
    }
  }

  /** The display hour and whether the suffix is PM, as `formatTime` converts an hour. */
  function Meridiem(h: nat): (nat, bool) {
    if h == 0 then (12, false)
    else if h == 12 then (12, true)
    else if h > 12 then (h - 12, true)
    else (h, false)
  }

  function Suffix(pm: bool): string {
    if pm then "PM" else "AM"
  }

  /** The label `${hour}:${minute} ${suffix}` for a 24-hour hour and the minute text. */
  function Clock12(h: nat, minute: string): string {
    var (h12, pm) := Meridiem(h);
    NatToString(h12) + ":" + minute + " " + Suffix(pm)
  }

  /**
   `formatTime`: the empty string stays empty; text mentioning am/pm is
   kept; an ISO timestamp that parses is shown by its UTC clock; `H:MM` or
   `H:MM:SS` is converted keeping the minute digits; anything else is kept.
   */
  function FormatTime(t: Timestamp): (r: string)
    ensures t.raw == [] ==> r == []
    ensures HasAmPm(t.raw) ==> r == t.raw
    ensures r == t.raw || HasAmPm(r)
  {
    if t.raw == [] then []
    else if HasAmPm(t.raw) then t.raw
    else if 'T' in t.raw && t.utc.Some? then
      ClockHasAmPm(t.utc.value.hour, Pad2(t.utc.value.minute));
      Clock12(t.utc.value.hour, Pad2(t.utc.value.minute))
    else
      match MatchClock(t.raw)
      case Some(ct) =>
        ClockHasAmPm(ct.hour, ct.minute);
        Clock12(ct.hour, ct.minute)
      case None => t.raw
  }

  lemma ClockHasAmPm(h: nat, minute: string)
    ensures HasAmPm(Clock12(h, minute))
  {
    var (h12, pm) := Meridiem(h);
    var suffix := Suffix(pm);
    var s := Clock12(h, minute);
    var i := |s| - 2;
    assert s == NatToString(h12) + ":" + minute + " " + suffix;
    assert s[i] == suffix[0] && s[i + 1] == 'M';
    assert AmPmAt(s, i);
  }

  /** Formatting is idempotent for the same parse of the text. */
  lemma FormatTimeIdempotent(t: Timestamp)
    ensures FormatTime(Timestamp(FormatTime(t), t.utc)) == FormatTime(t)
  {
  }

  // ---------------------------------------------------------------------
  // The slot sort key
  // ---------------------------------------------------------------------

  /** `\s` of a JavaScript regular expression. */
  predicate IsSpace(c: char) {
    c == ' ' || c == '\t' || c == '\n' || c == '\r' || c == '\U{000B}' || c == '\U{000C}'
    || c == '\U{00A0}' || c == '\U{1680}' || ('\U{2000}' <= c <= '\U{200A}')
    || c == '\U{2028}' || c == '\U{2029}' || c == '\U{202F}' || c == '\U{205F}'
    || c == '\U{3000}' || c == '\U{FEFF}'
  }

  /** The length of the maximal run of digits starting at `i`. */
  function DigitRun(s: string, i: nat): (n: nat)
    requires i <= |s|
    ensures i + n <= |s| && AllDigits(s[i..i + n])
    ensures i + n == |s| || !IsDigit(s[i + n])
    decreases |s| - i
  {
    if i < |s| && IsDigit(s[i]) then
      var n := 1 + DigitRun(s, i + 1);
      assert s[i..i + n] == [s[i]] + s[i + 1..i + n];
      n
    else 0
  }

  /** A match of `(\d+):(\d+)\s?(AM|PM)` (case-insensitive): hour, minute and whether it reads PM. */
  datatype ClockMatch = ClockMatch(hour: nat, minute: nat, pm: bool)

  /**
   The match of `(\d+):(\d+)\s?(AM|PM)` starting exactly at `i`.  Both digit
   runs are maximal: a shorter run would be followed by a digit, which
   neither `:` nor `\s`/`A`/`P` accepts, so backtracking finds nothing else.
   */
  function MatchAt(s: string, i: nat): (r: Option<ClockMatch>)
    requires i <= |s|
  {
    var n1 := DigitRun(s, i);
    var c := i + n1;
    if n1 == 0 || c >= |s| || s[c] != ':' then None
    else
      var n2 := DigitRun(s, c + 1);
      var j := c + 1 + n2;
      var k := if j < |s| && IsSpace(s[j]) then j + 1 else j;
      if n2 == 0 || k + 1 >= |s| then None
      else if !(Lower(s[k]) == 'a' || Lower(s[k]) == 'p') || Lower(s[k + 1]) != 'm' then None
      else Some(ClockMatch(DigitsValue(s[i..c]), DigitsValue(s[c + 1..j]), Lower(s[k]) == 'p'))
  }

  /** The leftmost match at or after `i`. */
  function FirstMatch(s: string, i: nat): (r: Option<ClockMatch>)
    requires i <= |s|
    decreases |s| - i
  {
    if MatchAt(s, i).Some? then MatchAt(s, i)
    else if i == |s| then None
    else FirstMatch(s, i + 1)
  }

  /** The separator `" - "` of a slot label starts at `j`. */
  predicate SepAt(s: string, j: int) {
    0 <= j && j + 3 <= |s| && s[j] == ' ' && s[j + 1] == '-' && s[j + 2] == ' '
  }

  /** The index of the first `" - "` at or after `i`. */
  function FindSep(s: string, i: nat): (r: Option<nat>)
    requires i <= |s|
    ensures r.Some? ==> i <= r.value && SepAt(s, r.value)
    ensures r.Some? ==> forall j :: i <= j < r.value ==> !SepAt(s, j)
    ensures r.None? ==> forall j :: i <= j < |s| ==> !SepAt(s, j)
    decreases |s| - i
  {
    if i + 3 > |s| then None
    else if SepAt(s, i) then Some(i)
    else FindSep(s, i + 1)
  }

  /** `s.split(' - ')[0]`: the text before the first separator. */
  function StartPart(s: string): string {
    match FindSep(s, 0)
    case Some(i) => s[..i]
    case None => s
  }

  /** Minutes since midnight of a match: `(h % 12 + (PM ? 12 : 0)) * 60 + m`. */
  function MinutesOf(m: ClockMatch): int {
    (m.hour % 12 + (if m.pm then 12 else 0)) * 60 + m.minute
  }

  /**
   `getStart` of the slot comparator: the minutes of the first clock in the
   label's start part, or `None` where the source's `match` returns null
   (and the comparator throws).
   */
  function SlotKey(slot: string): (r: Option<int>)
    ensures r.Some? ==> r.value >= 0
  {
    match FirstMatch(StartPart(slot), 0)
    case Some(m) => Some(MinutesOf(m))
    case None => None
  }

  // ---------------------------------------------------------------------
  // Reading a formatted clock back
  // ---------------------------------------------------------------------

  /** `s` holds no `-`, so no separator can start inside it. */
  predicate NoDash(s: string) {
    forall j :: 0 <= j < |s| ==> s[j] != '-'
  }

  lemma DigitRunExact(s: string, i: nat, n: nat)
    requires i + n <= |s| && AllDigits(s[i..i + n])
    requires i + n == |s| || !IsDigit(s[i + n])
    ensures DigitRun(s, i) == n
    decreases n
  {
    if n > 0 {
      assert IsDigit(s[i..i + n][0]);
      assert s[i + 1..i + n] == s[i..i + n][1..];
      DigitRunExact(s, i + 1, n - 1);
    }
  }

  /** The match at 0 of a text shaped `D:DD A…` with an `L`-digit hour. */
  lemma MatchAtShape(s: string, L: nat)
    requires 0 < L && L + 6 <= |s| && AllDigits(s[0..L]) && s[L] == ':'
    requires IsDigit(s[L + 1]) && IsDigit(s[L + 2]) && s[L + 3] == ' '
    requires (s[L + 4] == 'A' || s[L + 4] == 'P') && s[L + 5] == 'M'
    ensures AllDigits(s[L + 1..L + 3])
    ensures MatchAt(s, 0) == Some(ClockMatch(DigitsValue(s[0..L]), DigitsValue(s[L + 1..L + 3]), s[L + 4] == 'P'))
  {
    DigitRunExact(s, 0, L);
    DigitRunExact(s, L + 1, 2);
  }

  /** The match at 0 of `${digits}:${minute} ${suffix}…`. */
  lemma MatchClockText(digits: string, minute: string, pm: bool, rest: string)
    requires 0 < |digits| && AllDigits(digits) && |minute| == 2 && AllDigits(minute)
    ensures MatchAt(digits + ":" + minute + " " + Suffix(pm) + rest, 0) == Some(ClockMatch(DigitsValue(digits), DigitsValue(minute), pm))
  {
    var s := digits + ":" + minute + " " + Suffix(pm) + rest;
    var L := |digits|;
    assert s[0..L] == digits;
    assert s[L + 1..L + 3] == minute;
    assert s[L] == ':' && s[L + 3] == ' ' && s[L + 5] == 'M';
    assert s[L + 4] == (if pm then 'P' else 'A');
    MatchAtShape(s, L);
  }

  /** Parsing a 12-hour label with a two-digit minute gives back its 24-hour clock. */
  lemma MatchClock12(h: nat, minute: string, rest: string)
    requires h < 24 && |minute| == 2 && AllDigits(minute)
    ensures MatchAt(Clock12(h, minute) + rest, 0) == Some(ClockMatch(Meridiem(h).0, DigitsValue(minute), Meridiem(h).1))
  {
    MatchClockText(NatToString(Meridiem(h).0), minute, Meridiem(h).1, rest);
  }

  /** A 12-hour label holds no `-`. */
  lemma Clock12NoDash(h: nat, minute: string)
    requires |minute| == 2 && AllDigits(minute)
    ensures NoDash(Clock12(h, minute))
  {
    var s := Clock12(h, minute);
    var digits := NatToString(Meridiem(h).0);
    assert s == digits + ":" + minute + " " + Suffix(Meridiem(h).1);
  }

  /** The start part of `a + " - " + b` is `a` when `a` holds no `-`. */
  lemma StartPartOfLabel(a: string, b: string)
    requires NoDash(a)
    ensures StartPart(a + " - " + b) == a
  {
    var s := a + " - " + b;
    assert SepAt(s, |a|);
    forall j | 0 <= j < |a|
      ensures !SepAt(s, j)
    {
      assert j + 1 < |a| ==> s[j + 1] == a[j + 1];
    }
  }

  /** `formatTime`'s hour conversion undone by the key's `h % 12 + (PM ? 12 : 0)`. */
  lemma MeridiemInverse(h: nat)
    requires h < 24
    ensures Meridiem(h).0 % 12 + (if Meridiem(h).1 then 12 else 0) == h
  {
  }

  /** The first match in a 12-hour label is the label's own clock. */
  lemma FirstMatchClock12(h: nat, minute: string)
    requires h < 24 && |minute| == 2 && AllDigits(minute)
    ensures FirstMatch(Clock12(h, minute), 0) == Some(ClockMatch(Meridiem(h).0, DigitsValue(minute), Meridiem(h).1))
  {
    MatchClock12(h, minute, []);
    assert Clock12(h, minute) + [] == Clock12(h, minute);
  }

  /** `formatTime`'s clock read back by the key: its minutes since midnight. */
  lemma ClockMinutes(h: nat, minute: nat)
    requires h < 24
    ensures MinutesOf(ClockMatch(Meridiem(h).0, minute, Meridiem(h).1)) == h * 60 + minute
  {
    MeridiemInverse(h);
  }

  /**
   The sort key of a slot whose start part is the label of a 24-hour hour
   `h` and two minute digits is the clock's minutes since midnight: 12 AM
   sorts first (0), 12 PM at 720.
   */
  lemma SlotKeyOfClock(h: nat, minute: string, m: nat, slot: string)
    requires h < 24 && |minute| == 2 && AllDigits(minute) && DigitsValue(minute) == m
    requires StartPart(slot) == Clock12(h, minute)
    ensures SlotKey(slot) == Some(h * 60 + m)
  {
    FirstMatchClock12(h, minute);
    ClockMinutes(h, m);
  }

  // ---------------------------------------------------------------------
  // `formatTime` case by case, and its read-back by the sort key
  // ---------------------------------------------------------------------

  /**
   Text without am/pm that is not a parsed ISO timestamp and matches the
   clock pattern is converted to the 12-hour label of the captured hour,
   keeping the captured minute digits.
   */
  lemma FormatTimeClock(t: Timestamp, h: nat, mm: string)
    requires !HasAmPm(t.raw) && !('T' in t.raw && t.utc.Some?)
    requires MatchClock(t.raw) == Some(ClockText(h, mm))
    ensures FormatTime(t) == Clock12(h, mm)
  {
    assert t.raw != [];
  }

  /** Text without am/pm holding a `T` that parses is shown by its UTC clock, the minute padded. */
  lemma FormatTimeIso(t: Timestamp, c: UtcClock)
    requires !HasAmPm(t.raw) && 'T' in t.raw && t.utc == Some(c)
    ensures FormatTime(t) == Clock12(c.hour, Pad2(c.minute))
  {
    assert t.raw != [];
  }

  /** Text without am/pm that is neither a parsed ISO timestamp nor a clock is returned unchanged. */
  lemma FormatTimeFallback(t: Timestamp)
    requires !HasAmPm(t.raw) && !('T' in t.raw && t.utc.Some?)
    requires MatchClock(t.raw).None?
    ensures FormatTime(t) == t.raw
  {
  }

  /** The minute the clock pattern captures has two digits. */
  lemma ClockTextMinute(s: string, h: nat, mm: string)
    requires MatchClock(s) == Some(ClockText(h, mm))
    ensures |mm| == 2 && AllDigits(mm)
  {
    MatchClockOnlyAccepts(s);
  }

  /** The sort key of a row label that starts with a converted clock of the day is that clock in minutes. */
  lemma LabelKeyOfClock12(h: nat, mm: string, m: nat, e: string)
    requires h < 24 && |mm| == 2 && AllDigits(mm) && DigitsValue(mm) == m
    ensures SlotKey(Clock12(h, mm) + " - " + e) == Some(h * 60 + m)
  {
    Clock12NoDash(h, mm);
    StartPartOfLabel(Clock12(h, mm), e);
    SlotKeyOfClock(h, mm, m, Clock12(h, mm) + " - " + e);
  }

  /**
   A row label starting with a formatted `H:MM` or `H:MM:SS` clock of the
   day reads back, through the slot sort's key, as that clock's minutes
   since midnight. (The captured minute always has two digits:
   `ClockTextMinute`.)
   */
  lemma FormatTimeClockKey(t: Timestamp, h: nat, mm: string, m: nat, e: string)
    requires !HasAmPm(t.raw) && !('T' in t.raw && t.utc.Some?)
    requires MatchClock(t.raw) == Some(ClockText(h, mm)) && h < 24
    requires |mm| == 2 && AllDigits(mm) && DigitsValue(mm) == m
    ensures SlotKey(FormatTime(t) + " - " + e) == Some(h * 60 + m)
  {
    LabelKeyOfClock12(h, mm, m, e);
    ClockLabelKey(t, h, mm, e);
  }

  /** A row label starting with a formatted ISO timestamp reads back as its UTC clock's minutes since midnight. */
  lemma FormatTimeIsoKey(t: Timestamp, c: UtcClock, e: string)
    requires !HasAmPm(t.raw) && 'T' in t.raw && t.utc == Some(c)
    ensures SlotKey(FormatTime(t) + " - " + e) == Some(c.hour * 60 + c.minute)
  {
    LabelKeyOfPadded(c.hour, c.minute, e);
    IsoLabelKey(t, c, e);
  }

  /** The key of a label started by a formatted clock text is that of the converted clock's label. */
  lemma ClockLabelKey(t: Timestamp, h: nat, mm: string, e: string)
    requires !HasAmPm(t.raw) && !('T' in t.raw && t.utc.Some?)
    requires MatchClock(t.raw) == Some(ClockText(h, mm))
    ensures SlotKey(FormatTime(t) + " - " + e) == SlotKey(Clock12(h, mm) + " - " + e)
  {
    FormatTimeClock(t, h, mm);
  }

  /** The key of a label started by a formatted ISO timestamp is that of its UTC clock's label. */
  lemma IsoLabelKey(t: Timestamp, c: UtcClock, e: string)
    requires !HasAmPm(t.raw) && 'T' in t.raw && t.utc == Some(c)
    ensures SlotKey(FormatTime(t) + " - " + e) == SlotKey(Clock12(c.hour, Pad2(c.minute)) + " - " + e)
  {
    FormatTimeIso(t, c);
  }

  /** The key of a label starting with the 12-hour text of an hour and a padded minute. */
  lemma LabelKeyOfPadded(h: nat, m: nat, e: string)
    requires h < 24 && m < 60
    ensures SlotKey(Clock12(h, Pad2(m)) + " - " + e) == Some(h * 60 + m)
  {
    LabelKeyOfClock12(h, Pad2(m), m, e);
  }

  // ---------------------------------------------------------------------
  // `generateTimeSlots`
  // ---------------------------------------------------------------------

  /** A grid label: `${hour % 12 || 12}:${minute padded} ${hour >= 12 ? 'PM' : 'AM'}`. */
  function GridLabel(hour: nat, minute: nat): string
    requires minute < 100
  {
    NatToString(if hour % 12 == 0 then 12 else hour % 12) + ":" + Pad2(minute) + " " + Suffix(hour >= 12)
  }

  /** The grid's hour conversion agrees with `formatTime`'s on every hour of the day. */
  lemma GridLabelIsClock12(hour: nat, minute: nat)
    requires hour < 24 && minute < 100
    ensures GridLabel(hour, minute) == Clock12(hour, Pad2(minute))
  {
    var h12 := if hour % 12 == 0 then 12 else hour % 12;
    if hour < 12 {
      assert hour % 12 == hour;
    } else {
      assert hour % 12 == hour - 12;
    }
    assert h12 == Meridiem(hour).0 && (hour >= 12) == Meridiem(hour).1;
  }

  /** The half-hour labels from `7:00 AM` up to `11:30 PM`. */
  function TimeGrid(): (r: seq<string>)
    ensures |r| == 34
  {
    seq(34, k requires 0 <= k < 34 => GridLabel(7 + k / 2, 30 * (k % 2)))
  }

  /** A text without a separator is its own start part. */
  lemma StartPartNoSep(a: string)
    requires NoDash(a)
    ensures StartPart(a) == a
  {
    assert forall j :: 0 <= j < |a| ==> !SepAt(a, j) by {
      forall j | 0 <= j < |a|
        ensures !SepAt(a, j)
      {
        assert j + 1 < |a| ==> a[j + 1] != '-';
      }
    }
  }

  /** The grid's `k`-th label reads back as minute `420 + 30k` of the day: ascending, every half hour. */
  lemma TimeGridKeys(k: nat)
    requires k < 34
    ensures SlotKey(TimeGrid()[k]) == Some(420 + 30 * k)
  {
    var h := 7 + k / 2;
    var minute := Pad2(30 * (k % 2));
    var a := TimeGrid()[k];
    GridLabelIsClock12(h, 30 * (k % 2));
    assert a == Clock12(h, minute);
    Clock12NoDash(h, minute);
    StartPartNoSep(a);
    SlotKeyOfClock(h, minute, 30 * (k % 2), a);
    assert h * 60 + DigitsValue(minute) == 420 + 30 * k;
  }

  /** A text without the letters `a`, `p` (either case) mentions neither am nor pm. */
  lemma NoAmPmLetters(s: string)
    requires forall i :: 0 <= i < |s| ==> Lower(s[i]) != 'a' && Lower(s[i]) != 'p'
    ensures !HasAmPm(s)
  {
  }

  /** `2:00 PM` is the 12-hour label of 14 o'clock. */
  lemma TwoPmLabel()
    ensures Clock12(14, "00") == "2:00 PM"
  {
    assert NatToString(2) == "2";
  }

  lemma ClockTextNoAmPm()
    ensures !HasAmPm("14:00:00") && 'T' !in "14:00:00"
  {
    var a: string := "14:00:00";
    assert forall i :: 0 <= i < |a| ==> IsDigit(a[i]) || a[i] == ':';
    NoAmPmLetters(a);
  }

  lemma ClockTextMatches()
    ensures MatchClock("14:00:00") == Some(ClockText(14, "00"))
  {
    MatchClockAccepts("14", "00", ":00");
    assert "14" + ":" + "00" + ":00" == "14:00:00";
  }

  /** `"14:00:00"` reads as `2:00 PM`. */
  lemma TwoPmClock()
    ensures FormatTime(Timestamp("14:00:00", None)) == "2:00 PM"
  {
    ClockTextNoAmPm();
    ClockTextMatches();
    TwoPmLabel();
  }

  lemma IsoTextNoAmPm()
    ensures !HasAmPm("2024-03-05T14:00:00Z") && 'T' in "2024-03-05T14:00:00Z"
  {
    var a: string := "2024-03-05T14:00:00Z";
    assert forall i :: 0 <= i < |a| ==> IsDigit(a[i]) || a[i] in "-:TZ";
    NoAmPmLetters(a);
    assert a[10] == 'T';
  }

  /** `"2024-03-05T14:00:00Z"`, read in UTC, also reads as `2:00 PM`. */
  lemma TwoPmIso()
    ensures FormatTime(Timestamp("2024-03-05T14:00:00Z", Some(Clock(14, 0)))) == "2:00 PM"
  {
    IsoTextNoAmPm();
    assert Pad2(0) == "00";
    TwoPmLabel();
  }
}
